=== FILE: README.md ===
# web-analytics core in Dafny

A model of the core of a small web-analytics system, with proofs about it.

- **Browser tracker** (`Analytics` class):
  - keeps a session id in `sessionStorage`;
  - computes and caches a device fingerprint;
  - builds one event object per `track` call;
  - walks the DOM for element paths and ignore marks;
  - copies form fields, leaving out password fields.
- **Fingerprinter** (`Fingerprinter` class):
  - collects 22 named browser signals (fonts, canvas, WebGL, audio, media devices, plugins and more);
  - filters them by privacy tier and exclusion list;
  - hashes the filtered record to a hex device id;
  - scores a confidence from 0 to 100.
- **Ingestion server** (`POST /events`):
  - flattens one event or a `{batch: [...]}` body into table rows with fixed fallbacks;
  - inserts them and answers 200 or 500.
- **Migration script**: creates the database, then runs the schema file one statement at a time.

Files and modules:

| file | module | what it holds |
|---|---|---|
| `common.dfy` | `Common` | `Option`, duplicate-free sequences, `filter`-style removal |
| `strings.dfy` | `Strings` | `split`/`join`, `trim`, `includes`, `toLowerCase`, `slice` |
| `records.dfy` | `Records` | JavaScript objects as ordered property lists: lookup, assignment, spread |
| `json.dfy` | `Json` | JSON/JavaScript values, truthiness, `a \|\| b`, `.` and `?.` |
| `hex.dfy` | `Hex` | bytes to lower-case hex, and back |
| `privacy.dfy` | `Privacy` | the privacy filter |
| `audio.dfy` | `AudioProbe` | the audio probe as a state machine |
| `probes.dfy` | `Probes` | the other collectors and the 22-component record |
| `fingerprint.dfy` | `Fingerprint` | `getFingerprint` |
| `dom.dfy` | `Dom` | `shouldIgnoreElement`, `getElementPath` |
| `client_config.dfy` | `ClientConfig` | `DEFAULT_CONFIG` and the constructor's merge |
| `analytics.dfy` | `Analytics` | session id, form fields, fingerprint cache, `track`, `identify` |
| `ingest.dfy` | `Ingest` | the `POST /events` handler |
| `migrate.dfy` | `Migrate` | the migration script |

Modelling choices:

- **Objects.** A JavaScript object is a list of (name, value) pairs in insertion order. Order matters because `JSON.stringify` and `Object.keys` follow it. JavaScript puts array-index names (`"0"`, `"1"`, …) first, in ascending order; the model does not (see "## Left out").
- **Numbers.** Numbers are exact rationals (`real`).
- **Browser and database.** Everything the code reads from the browser or the database is an explicit parameter:
  - navigator and screen readings;
  - font measurements;
  - canvas, WebGL and media outcomes;
  - the audio callbacks in firing order;
  - `Date.now()`;
  - `crypto.randomUUID()`;
  - whether a database query succeeds.
- **Digest.** SHA-256 of the UTF-8 bytes of `JSON.stringify(record)` is one parameter: a function from the record to its digest bytes. The device id depends only on that function's value.

## Model

| member | source | states |
|---|---|---|
| `Strings.SplitJoinReplaces` | packages/client/src/analytics.ts:239 | `split(' ').join('.')` replaces every space by a dot, and nothing else changes |
| `Strings.JoinSplitRoundTrip` | packages/server/src/db/migrate.ts:36-37 | splitting the `;`-join of `;`-free pieces gives the pieces back |
| `Strings.TrimSpec` | packages/server/src/db/migrate.ts:38 | `trim()` returns a contiguous piece of its input that starts and ends with no white space, and everything removed before and after it is white space |
| `Strings.TrimIdempotent` | packages/server/src/db/migrate.ts:38 | trimming twice is trimming once |
| `Strings.ContainsSpec` | packages/client/src/analytics.ts:255 | `includes` holds exactly when the substring occurs at some position |
| `Records.Put` | packages/client/src/utils/fingerprint.ts:287 | property assignment: the key then holds the new value, every other key is unchanged, and an existing key keeps its position while a new one is appended |
| `Records.SpreadLookup` | packages/client/src/analytics.ts:18-21 | after `{...a, ...b}` a key of `b` has `b`'s value and any other key has `a`'s |
| `Records.CopyIsIdentity` | packages/client/src/analytics.ts:294-297 | a shallow copy `{...b}` of an object equals it |
| `Json.Or` | packages/server/src/index.ts:35-52 | `a \|\| b` is `a` when `a` is truthy and `b` otherwise |
| `Json.Member` | packages/server/src/index.ts:25 | reading a property of `null`/`undefined` throws, and of anything else gives the own property or `undefined` |
| `Hex.DecodeEncode` | packages/client/src/utils/fingerprint.ts:359-360 | the hex device id decodes back to the exact digest bytes |
| `Hex.EncodeShape` | packages/client/src/utils/fingerprint.ts:360 | the id has two lower-case hex digits per byte, because `padStart(2, '0')` fills single digits |
| `Hex.EncodeInjective` | packages/client/src/utils/fingerprint.ts:359-360 | different digests give different ids |
| `Hex.ByteHexDigits` | packages/client/src/utils/fingerprint.ts:360 | one byte is written high nibble first, then low nibble |
| `Privacy.ModeOf` | packages/client/src/utils/fingerprint.ts:264-276 | the tier is strict exactly for `'strict'` and full exactly for `'full'`; anything else, absence included, is balanced |
| `Privacy.FilterByPrivacy` | packages/client/src/utils/fingerprint.ts:242-292 | a name is kept exactly when it is allowed by the tier, not excluded, and defined, and it keeps its value; the result is a well-formed object no longer than the allow-list |
| `Privacy.SelectLookup` | packages/client/src/utils/fingerprint.ts:284-289 | the copy loop keeps exactly the allowed names whose value is not `undefined`, with unchanged values |
| `Privacy.SelectOrder` | packages/client/src/utils/fingerprint.ts:284-289 | the copied keys come in allow-list order |
| `Privacy.StrictContainment` | packages/client/src/utils/fingerprint.ts:246-267 | strict output holds only language, timezone, screenResolution and platform, and never canvas, webgl or audio |
| `Privacy.BalancedContainment` | packages/client/src/utils/fingerprint.ts:254-270 | balanced output holds only the nine strict-or-balanced names |
| `Privacy.StrictWithinBalanced` | packages/client/src/utils/fingerprint.ts:246-261 | whatever strict keeps, balanced keeps with the same value |
| `Privacy.FullKeepsDefined` | packages/client/src/utils/fingerprint.ts:271-289 | full mode keeps exactly the defined, non-excluded components |
| `Privacy.ExcludedNeverEmitted` | packages/client/src/utils/fingerprint.ts:278-281 | an excluded name never appears, in any tier |
| `Privacy.FilterKeys` | packages/client/src/utils/fingerprint.ts:263-289 | a name is an output key exactly when the tier allows it, it is not excluded, and its component is defined |
| `Privacy.FilterOrder` | packages/client/src/utils/fingerprint.ts:263-289 | output keys are the present names of the allow-list minus exclusions, in allow-list order |
| `Privacy.FilterDeterministic` | packages/client/src/utils/fingerprint.ts:242-292 | records with equal values (and, in full mode, equal key order) filter to the same record |
| `AudioProbe.Teardown` | packages/client/src/utils/fingerprint.ts:109-126 | cleanup stops the oscillator once, disconnects each of the four nodes once, and closes the context exactly when it is not already closed |
| `AudioProbe.RunKeepsInv` | packages/client/src/utils/fingerprint.ts:108-143 | whatever callbacks fire, cleanup runs at most once, a resolved probe stays resolved with its first value, and until resolution the timer is still armed |
| `AudioProbe.UnavailablePaths` | packages/client/src/utils/fingerprint.ts:86-149 | a missing `AudioContext` or a setup exception yields `'audio-unavailable'` and touches no node |
| `AudioProbe.AvailableOutcome` | packages/client/src/utils/fingerprint.ts:128-145 | the first callback decides (`'audio-disabled'` for the timer, the sample sum otherwise), and the graph is torn down exactly once |
| `Probes.DetectedIffTwoBaselinesDiffer` | packages/client/src/utils/fingerprint.ts:193-202 | a font is detected exactly when two distinct baseline families both measure differently |
| `Probes.DetectedAmongSpec` | packages/client/src/utils/fingerprint.ts:190-205 | a candidate is reported exactly when it passes the rule, and reports keep candidate-list order |
| `Probes.CountMismatches` | packages/client/src/utils/fingerprint.ts:192-201 | the inner loop counts the baselines whose rendered size changes, and reaches 2 exactly when the font counts as detected |
| `Probes.DetectFonts` | packages/client/src/utils/fingerprint.ts:152-206 | without a `body` element the probe throws and reports nothing; otherwise the nested loops report exactly the detected candidates, in list order |
| `Probes.CanvasComponent` | packages/client/src/utils/fingerprint.ts:46-66 | `''` without a 2-D context, otherwise the data URL |
| `Probes.WebGLComponent` | packages/client/src/utils/fingerprint.ts:68-83 | without a context or the debug extension, `{render: '', vendor: ''}` (render first); otherwise exactly `{vendor, render}` with the unmasked values, vendor first |
| `Probes.MediaComponent` | packages/client/src/utils/fingerprint.ts:208-217 | `[]` when enumeration is missing or throws, otherwise one `kind:label` per device |
| `Probes.PluginsComponent` | packages/client/src/utils/fingerprint.ts:348-353 | strict mode collects no plugins; other modes collect every plugin name in order |
| `Probes.ComponentsShape` | packages/client/src/utils/fingerprint.ts:294-319 | the collected record has exactly the 22 names, each once, in collection order |
| `Probes.ComponentsSpec` | packages/client/src/utils/fingerprint.ts:312-317 | each collector's result, fallbacks included, sits under its own name |
| `Fingerprint.GetFingerprint` | packages/client/src/utils/fingerprint.ts:219-240 | the id is the hex form of the digest of the filtered record; confidence is the number of signals in the filtered record times 100/22, so it lies in [0, 100], and in strict mode is at most 4/22 of 100; no excluded name and no name outside the tier is in the components |
| `Fingerprint.SignalCountSpec` | packages/client/src/utils/fingerprint.ts:229-231 | the signal count of a record is the number of its positions whose value is not `undefined`, `''` or an empty array |
| `Fingerprint.CollectorSignals` | packages/client/src/utils/fingerprint.ts:229-231 | the canvas, media and plugins collectors yield a signal exactly when they produced a non-empty URL or list; the WebGL collector, fallback included, always yields one |
| `Fingerprint.ConfidenceCounts` | packages/client/src/utils/fingerprint.ts:228-233 | confidence is 100/22 times the number of signal positions of the hashed record; a canvas, media or plugins entry there counts exactly when its collector produced something, and in full mode the WebGL entry is present and always counts unless excluded |
| `Fingerprint.SerialisationOrder` | packages/client/src/utils/fingerprint.ts:221-225 | the hashed record's key order depends only on the tier, the exclusions and which components are defined, never on when the collectors finish |
| `Fingerprint.Deterministic` | packages/client/src/utils/fingerprint.ts:219-240 | equal component values give an equal fingerprint |
| `Fingerprint.EnabledComponents` | packages/client/src/utils/fingerprint.ts:220-221 | the fingerprint's components are exactly the allowed, non-excluded, defined collected ones |
| `Dom.ShouldIgnore` | packages/client/src/analytics.ts:213-221 | an element is ignored exactly when it, or an ancestor below `body`, carries `data-analytics-ignore` |
| `Dom.IgnoreStopsAtBody` | packages/client/src/analytics.ts:214 | a mark on `body` or above has no effect |
| `Dom.SegmentSpec` | packages/client/src/analytics.ts:228-240 | a segment is the lower-cased tag plus `#id` when the id is non-empty, else plus `.` and the classes with spaces turned to dots, else the tag alone |
| `Dom.ElementPath` | packages/client/src/analytics.ts:223-247 | the path has one segment per element below `body`, outermost first, joined by `" > "` |
| `ClientConfig.DefaultConfigShape` | packages/client/src/types/index.ts:37-70 | the defaults set 23 distinct settings, and `projectId` is not among them |
| `ClientConfig.DefaultValuesSpec` | packages/client/src/types/index.ts:37-70 | the defaults include balanced privacy, sampling rate 1, batch size 10, a 30-minute session, the page's hostname as cookie domain, and the collection URL |
| `ClientConfig.MergeConfigSpec` | packages/client/src/analytics.ts:18-21 | each caller setting wins, every other setting is the default, and the merged object is well formed |
| `Analytics.GetOrCreateSessionId` | packages/client/src/analytics.ts:263-270 | a stored non-empty id is returned and the storage left as it is; otherwise the generated UUID is stored under the key and returned; other storage keys are untouched |
| `Analytics.SessionIdStable` | packages/client/src/analytics.ts:263-270 | once an id exists, later calls return it and leave the storage alone |
| `Analytics.FormFieldsSpec` | packages/client/src/analytics.ts:249-261 | a captured field holds the text of the last entry with that name; names containing "password" in any case, the name `__proto__` (whose assignment sets no field), and names no entry has, are absent |
| `Analytics.FormFieldsNeverSensitive` | packages/client/src/analytics.ts:254-257 | no captured field name contains "password" in any letter case, and none is `__proto__` |
| `Analytics.FingerprinterOptions` | packages/client/src/analytics.ts:32-34 | the tracker's fingerprinter gets the configured privacy string and no exclusion list; a non-string setting is passed as absent, which the fingerprinter treats as balanced just as it treats any unknown value |
| `Analytics.NewPrivacyMode` | packages/client/src/analytics.ts:18-34 | without a caller setting, the tracker fingerprints in balanced mode |
| `Analytics.PostUrlAsWritten` | packages/client/src/analytics.ts:24-31 | the request manager receives an options object, so `fetch` posts to `"[object Object]"` |
| `Analytics.PostUrlAsWrittenMissesEndpoint` | packages/client/src/utils/requests.ts:4-9 | the URL as written is never the configured or default endpoint |
| `Analytics.PostUrl` | packages/client/src/analytics.ts:24-25 | the intended URL is the configured `endpoint` string |
| `Analytics.PostUrlIsEndpoint` | packages/client/src/analytics.ts:18-25 | with the corrected URL, events go to the caller's endpoint or else the default collection URL |
| `Analytics.Initialize` | packages/client/src/analytics.ts:43-51 | `initialize` caches the fingerprint computed from the tracker's config and the page, and changes neither config nor storage |
| `Analytics.InitializeAgrees` | packages/client/src/analytics.ts:43-51 | the constructor's late `initialize` overwrites the cache with the fingerprint already there |
| `Analytics.GetDeviceFingerprint` | packages/client/src/analytics.ts:317-322 | returns the cached fingerprint; when none is cached, computes the page's fingerprint, caches it and returns it |
| `Analytics.Track` | packages/client/src/analytics.ts:276-314 | the session id and the storage after the call are those of the session read-or-create step; the event carries that session id, plus the device id and confidence of the fingerprint now cached; an existing cache is never replaced; type, timestamp and project id come from the call, clock and config; user agent, language, platform and time zone are the page's, screen size and viewport are `width x height` |
| `Analytics.TrackCopies` | packages/client/src/analytics.ts:276-297 | the event's payload and user properties equal the arguments, `{}` when omitted |
| `Analytics.Identify` | packages/client/src/analytics.ts:272-274 | `identify` is `track('identify', {user_id}, traits)`, including when traits are omitted |
| `Analytics.IdentifyEvent` | packages/client/src/analytics.ts:272-274 | the identify event has `user_id` as its only user property and the traits as its payload |
| `Analytics.TrackAllSettled` | packages/client/src/analytics.ts:281-293 | once a session and a fingerprint exist, every later event carries both, and neither changes |
| `Analytics.TrackAllConsistent` | packages/client/src/analytics.ts:276-314 | all events tracked on a page share one device id and one session id |
| `Ingest.EventsOf` | packages/server/src/index.ts:25 | a body whose `batch` is an array gives that array's elements, any other non-null body gives itself as the one event, and a null body throws |
| `Ingest.ToRow` | packages/server/src/index.ts:27-53 | formatting throws exactly for a `null`/`undefined` event |
| `Ingest.FormatAll` | packages/server/src/index.ts:27-54 | formatting succeeds exactly when every event formats, giving one row per event in order |
| `Ingest.Handle` | packages/server/src/index.ts:23-64 | the answer is 200 `{status: 'success'}` exactly when formatting and the insert succeed, and otherwise 500 `{status: 'error', message: 'Failed to process events'}` |
| `Ingest.BatchOrSingle` | packages/server/src/index.ts:25-54 | for any body other than `null`/`undefined`: a `batch` array gives one row per element, in order, unless some element is null; any other body, a top-level array included, gives exactly one row |
| `Ingest.RowFallbacks` | packages/server/src/index.ts:28-53 | ids and timestamp pass through; every field the handler maps with `\|\|` holds its source value when truthy and otherwise exactly its default (`''`, `0`, `{}` or `1`); url, referrer and title are read from the payload |
| `Ingest.SampleRate` | packages/server/src/index.ts:52 | an explicit sample rate of 0 is stored as 1; any other number is kept |
| `Ingest.IpFallback` | packages/server/src/index.ts:36 | the address is `req.ip`, else the socket address, else `''` |
| `Ingest.NullElementRejectsBatch` | packages/server/src/index.ts:25-62 | one `null` element rejects the whole batch with a 500 and no insert |
| `Migrate.Statements` | packages/server/src/db/migrate.ts:36-39 | each statement is non-empty, trimmed and free of `;`, with no more statements than `;`-separated pieces |
| `Migrate.StatementsJoin` | packages/server/src/db/migrate.ts:36-39 | joining clean statements with `;` and splitting again gives them back |
| `Migrate.StatementsTerminated` | packages/server/src/db/migrate.ts:36-39 | a schema of `;`-terminated statements gives back exactly those statements |
| `Migrate.StatementsOfPieces` | packages/server/src/db/migrate.ts:36-39 | schema text of `;`-free pieces in any layout gives each piece trimmed, in order, with the pieces that trim to nothing dropped |
| `Migrate.StatementsOfTerminatedPieces` | packages/server/src/db/migrate.ts:36-39 | the same when the last piece is followed by `;` |
| `Migrate.Label` | packages/server/src/db/migrate.ts:45 | the log label is the statement's first 50 characters followed by `...` |
| `Migrate.RunStatements` | packages/server/src/db/migrate.ts:41-46 | statements run in order; each success is logged, and the first failure stops the loop |
| `Migrate.Run` | packages/server/src/db/migrate.ts:16-53 | the script issues `CREATE DATABASE IF NOT EXISTS <db>`, then the statements, in order, up to and including the first failure; it succeeds exactly when every query does; the log is the create line, one line per executed statement, and the final line |

## Left out

- **Request batching, sampling, retries, backoff.** These settings exist, but nothing in the code uses them: `RequestsManager.send` makes one `fetch` per event. There is no queue to model.
- **Which node failed during audio setup.** An exception while the graph is built (`fingerprint.ts:93-106`) is caught at `fingerprint.ts:146-148`, which returns `'audio-unavailable'`. `cleanup` is only defined at `fingerprint.ts:109`, so nothing is torn down on that path, and the model says so (`AudioProbe.UnavailablePaths`). Which nodes or context were already created, and so stay open, is not modelled.
- **Async interleaving.** Audio callbacks, `track`, `initialize` and `getDeviceFingerprint` each run to completion before the next starts. The one-shot flag prevents a second teardown under any interleaving.
- `AudioProbe.Teardown`: assumes every teardown step succeeds. In the source the steps run inside their own `try`/`catch` (`fingerprint.ts:112-125`), so a `stop()` or `disconnect()` that throws skips the remaining disconnects and the `close()`, and the error is only logged; the probe still resolves with the same value. The nodes left connected on that path are not modelled.
- `AudioProbe.AvailableOutcome`: "the first callback decides" holds only under that run-to-completion assumption. Two outcomes of the source are excluded. If the timer fires and its `cleanup` suspends on `await audioContext.close()`, a sample callback arriving meanwhile finds the flag set, skips teardown and resolves with its sum first. Likewise, of two queued `audioprocess` events, the second one's sum can win.
- **Concurrent fingerprint computations on every page load.** The constructor starts `initialize()` without awaiting it (`analytics.ts:36`), and with the default `autoTrack` and `trackPageViews` (`types/index.ts:41-42`) it then calls `trackPageView` and `trackSessionStart` (`analytics.ts:57`, `analytics.ts:85`), whose `track` calls find no cached fingerprint yet. So up to three `getFingerprint` computations run at once, each caching its own result; the model runs them one after another. `Fingerprint.Deterministic` and `Analytics.InitializeAgrees` show the values coincide for equal browser readings.
- **SHA-256, UTF-8 encoding and `JSON.stringify`.** These are the `digest` parameter. The model proves that the hashed record is the same for equal inputs (key order included), not what its bytes are.
- **Browser and database reads.** The following are parameters:
  - font measurements, canvas pixels, WebGL parameters, media devices;
  - plugin names and navigator/screen values;
  - the audio sample sum, given as its string;
  - `Date.now()`, `crypto.randomUUID()`;
  - whether a database query succeeds.
- **Number-to-string formatting.** The `${w}x${h}` strings in `track` take their numbers already formatted. Float sums, NaN and the float division of the confidence are not modelled: the confidence is an exact ratio.
- **`toLowerCase`.** It folds ASCII letters only. That is exact for the `password` test, and for tag names made of ASCII letters. A tag name with a non-ASCII capital (a custom element such as `x-É`, whose `tagName` is `X-É`) lower-cases to `x-é` in the source but to `x-É` in `Dom.Segment` and `Dom.ElementPath`.
- **DOM event wiring.** Page views, clicks, form submits, scroll depth, Web Vitals and the `PerformanceObserver` callbacks in `initializeAutoTracking` and its handlers are not modelled. `shouldIgnoreElement`, `getElementPath` and `getFormFields`, which those handlers use, are modelled.
- **Debug logging.** `console.log` output in the tracker is not modelled. The migration log lines are.
- **Closing and reopening database clients in the migration.** These are not modelled, and neither are the `fs` read of the schema file (the schema text is a parameter) and `process.exit(1)` (shown as `ok == false`). The failure line omits the error object.
- **`new Date(event.timestamp)` and the re-serialisation inside `clickhouse.insertEvents`.** The row holds the raw timestamp and the values handed to `JSON.stringify`. The insert's success is the `insert` parameter. `db/clickhouse.ts` is not part of this model.
- **The other server routes, and the older JavaScript client** (`analytics.js`, `index.js`). These are outside the modelled core.
- **Arrays and non-object values read with `.`/`?.`.** They read as `undefined` for every name the code asks for. Array `length` and index properties are never read by the modelled code.
- `Probes.ComponentsSpec`, `Fingerprint.GetFingerprint`, `Analytics.Track`: the record is built for a page that has a `body` and whose `sessionStorage` can be read. Without a body, `getFonts` throws (`Probes.DetectFonts` returns nothing, `fingerprint.ts:175,184`), and the rejection passes through `getComponents` (`fingerprint.ts:312-317`) and `getFingerprint` into `track`, which sends no event. Reading `window.sessionStorage` (`fingerprint.ts:305`) or calling `sessionStorage.getItem` (`analytics.ts:264`) can throw a SecurityError with the same effect. These failure paths are not modelled past `DetectFonts`.
- `Analytics.GetOrCreateSessionId`: the storage is a total map that never throws; the SecurityError above is left out.
- `Analytics.FormFieldsSpec`, `Records.Put`: a new name is appended at the end. JavaScript lists array-index names (`"0"`, `"1"`, …) before all other names, in ascending order, so a form with a field named `1` after `email` serialises with `1` first, unlike `FormFields`. The names the fingerprinter assigns are never index names, so the difference is limited to form fields.
- `Migrate.Label`, `Strings.Take`: the cut is at 50 Unicode scalar values, while `slice(0, 50)` counts UTF-16 code units. They differ when the statement holds characters outside the Basic Multilingual Plane (an emoji is 2 units in JavaScript and 1 `char` here), and a cut through a surrogate pair, which `slice` can produce, has no `char` equivalent.
- `Analytics.PostUrlAsWritten`: states only that the URL is `"[object Object]"`. It does not model how the browser resolves that relative URL against the page.

## Findings

| source | as written | input that shows it | evidently intended | confidence | as-written member | corrected member |
|---|---|---|---|---|---|---|
| packages/client/src/analytics.ts:24-31 | The constructor passes an options object to `new RequestsManager(...)`, whose constructor (`utils/requests.ts:4-9`) stores it as the endpoint string that `fetch` posts to. | Any tracker, e.g. one built with only `projectId`. Its events are posted to `"[object Object]"`, not to `https://api.youranalytics.com/events`. | Events are posted to `config.endpoint` (the default collection URL unless the caller sets one). | high; not executed | `Analytics.PostUrlAsWritten` (shown by `Analytics.PostUrlAsWrittenMissesEndpoint`) | `Analytics.PostUrl` (proved by `Analytics.PostUrlIsEndpoint`) |

=== FILE: analytics.dfy ===
/** The browser tracker (`class Analytics`): session id, form capture, the
    cached device fingerprint, and the event record `track` sends. The page
    (clock, `crypto.randomUUID`, navigator and window readings, the
    fingerprint probes and the digest) is an explicit parameter. Each public
    call is taken to complete before the next one starts. */
module Analytics {
  import opened Common
  import opened Strings
  import opened Records
  import opened Json
  import Probes
  import Fingerprint
  import ClientConfig

  // ---------------------------------------------------------------------
  // Session id

  /** The `sessionStorage` key holding the session id. */
  const SessionKey: string := "analytics_session_id"

  type SessionStorage = map<string, string>

  /** `getOrCreateSessionId`: the stored id, or, when there is none (or it is
      the empty string), a fresh UUID that is stored first. Returns the id and
      the storage afterwards. */
  function GetOrCreateSessionId(storage: SessionStorage, uuid: string): (r: (string, SessionStorage))
    ensures SessionKey in r.1 && r.1[SessionKey] == r.0
    ensures forall k :: k != SessionKey ==> (k in r.1 <==> k in storage)
    ensures forall k :: k != SessionKey && k in storage ==> r.1[k] == storage[k]
    ensures SessionKey in storage && storage[SessionKey] != "" ==> r == (storage[SessionKey], storage)
    ensures !(SessionKey in storage && storage[SessionKey] != "") ==> r == (uuid, storage[SessionKey := uuid])
  {
    if SessionKey in storage && storage[SessionKey] != "" then (storage[SessionKey], storage)
    else (uuid, storage[SessionKey := uuid])
  }

  /** Once an id exists every later call returns it and leaves the storage
      alone, whatever UUID the later call would have drawn. */
  lemma SessionIdStable(storage: SessionStorage, uuid: string, later: string)
    requires uuid != ""
    ensures var (id, s1) := GetOrCreateSessionId(storage, uuid);
      GetOrCreateSessionId(s1, later) == (id, s1)
  {
  }

  // ---------------------------------------------------------------------
  // Form fields

  /** A `FormData` entry value: text, or an uploaded file. */
  datatype FormValue = Text(s: string) | File(name: string)

  /** `value.toString()`. */
  function ToText(v: FormValue): string
  {
    match v
    case Text(s) => s
    case File(_) => "[object File]"
  }

  /** A field whose name, lower-cased, contains `password` is never captured. */
  predicate Sensitive(name: string)
  {
    Contains(Lower(name), "password")
  }

  /** `fields[name] = ...` on a plain object: the name `__proto__` reaches
      the inherited prototype setter, which ignores a string, so only the
      other non-sensitive names are stored. */
  predicate Stored(name: string)
  {
    !Sensitive(name) && name != "__proto__"
  }

  /** `getFormFields`: stores the text of each entry's value under its name,
      entries taken in document order, skipping sensitive names (and
      `__proto__`, which the assignment does not store). */
  function FormFields(entries: seq<(string, FormValue)>): Record<string>
    decreases |entries|
  {
    if entries == [] then []
    else
      var acc := FormFields(entries[..|entries| - 1]);
      var (name, value) := entries[|entries| - 1];
      if Stored(name) then Put(acc, name, ToText(value)) else acc
  }

  /** Entry `i` is the last one named `name`. */
  predicate LastNamed(entries: seq<(string, FormValue)>, name: string, i: int)
  {
    0 <= i < |entries| && entries[i].0 == name
    && forall j :: i < j < |entries| ==> entries[j].0 != name
  }

  /** A captured field holds the text of the last entry of that name; a
      sensitive name, `__proto__`, or a name no entry has, is absent; the
      result is a well-formed object. */
  lemma {:induction false} FormFieldsSpec(entries: seq<(string, FormValue)>, name: string)
    ensures UniqueKeys(FormFields(entries))
    ensures Sensitive(name) ==> Lookup(FormFields(entries), name).None?
    ensures name == "__proto__" ==> Lookup(FormFields(entries), name).None?
    ensures (forall i :: 0 <= i < |entries| ==> entries[i].0 != name) ==>
              Lookup(FormFields(entries), name).None?
    ensures forall i :: LastNamed(entries, name, i) && Stored(name) ==>
              Lookup(FormFields(entries), name) == Some(ToText(entries[i].1))
    decreases |entries|
  {
    if entries != [] {
      var prefix := entries[..|entries| - 1];
      var (n, v) := entries[|entries| - 1];
      FormFieldsSpec(prefix, name);
      if Stored(n) {
        FormFieldsSpec(prefix, n);
        PutUnique(FormFields(prefix), n, ToText(v));
      }
      forall i | LastNamed(entries, name, i) && Stored(name)
        ensures Lookup(FormFields(entries), name) == Some(ToText(entries[i].1))
      {
        if i < |entries| - 1 {
          assert LastNamed(prefix, name, i);
        }
      }
    }
  }

  /** No captured name mentions a password, in any letter case, and none
      is `__proto__`. */
  lemma FormFieldsNeverSensitive(entries: seq<(string, FormValue)>, name: string)
    requires name in Keys(FormFields(entries))
    ensures !Sensitive(name) && name != "__proto__"
  {
    FormFieldsSpec(entries, name);
    LookupDefined(FormFields(entries), name);
  }

  // ---------------------------------------------------------------------
  // The tracker

  /** What `track` reads from the page at the moment of the call. Numbers that
      the source formats into strings are given already formatted. */
  datatype Page = Page(
    now: int,                 // `Date.now()`
    uuid: string,             // the value `crypto.randomUUID()` would return
    userAgent: Value, language: Value, platform: Value,
    screenWidth: string, screenHeight: string,
    innerWidth: string, innerHeight: string,
    timeZone: Value,
    browser: Probes.BrowserReads,
    digest: Fingerprint.Digest)

  datatype ClientMetadata = ClientMetadata(
    userAgent: Value, language: Value, platform: Value,
    screenResolution: string, viewport: string, timezone: Value,
    fingerprintConfidence: real)

  /** The event object `track` hands to the request manager, which posts it
      as JSON to `PostUrl` of the tracker's config. */
  datatype Event = Event(
    projectId: Value,
    eventType: string,
    timestamp: int,
    sessionId: string,
    deviceId: string,
    payload: Record<Value>,
    userProperties: Record<Value>,
    clientMetadata: ClientMetadata)

  /** The tracker's state: its merged config, the page's session storage and
      the cached fingerprint (`this.deviceFingerprint`). */
  datatype Tracker = Tracker(
    config: Record<Value>,
    storage: SessionStorage,
    fingerprint: Option<Fingerprint.DeviceFingerprint>)

  /** The options the constructor passes to its `Fingerprinter`: only
      `privacyMode`, never an exclusion list. */
  function FingerprinterOptions(config: Record<Value>): (o: Fingerprint.Options)
    ensures o.excludeComponents == []
    ensures o.privacyMode.Some? <==> Lookup(config, "privacyMode").Some? && Lookup(config, "privacyMode").value.Str?
    ensures o.privacyMode.Some? ==> Lookup(config, "privacyMode") == Some(Str(o.privacyMode.value))
  {
    var setting := Lookup(config, "privacyMode");
    if setting.Some? && setting.value.Str? then Fingerprint.Options(Some(setting.value.s), [])
    else Fingerprint.Options(None, [])
  }

  /** A fresh fingerprint for the page. */
  function Compute(config: Record<Value>, page: Page): Fingerprint.DeviceFingerprint
  {
    Fingerprint.GetFingerprint(page.browser, FingerprinterOptions(config), page.digest)
  }

  /** The constructor: the merged config, no fingerprint yet. Its call to
      `initialize` completes later, as `Initialize`. */
  function New(given: Record<Value>, hostname: string, storage: SessionStorage): (t: Tracker)
    ensures t.fingerprint.None?
  {
    Tracker(ClientConfig.MergeConfig(given, hostname), storage, None)
  }

  /** The constructor's privacy tier is the caller's, else balanced. */
  lemma NewPrivacyMode(given: Record<Value>, hostname: string, storage: SessionStorage)
    requires UniqueKeys(given)
    requires "privacyMode" !in Keys(given)
    ensures FingerprinterOptions(New(given, hostname, storage).config).privacyMode == Some("balanced")
  {
    ClientConfig.MergeConfigSpec(given, hostname, "privacyMode");
    ClientConfig.DefaultValuesSpec(hostname);
  }

  /** The options object the constructor hands to `new RequestsManager(...)`. */
  function ManagerOptions(config: Record<Value>): (v: Value)
    ensures v.Obj?
  {
    Obj([("endpoint", Lookup(config, "endpoint").GetOr(Undefined)),
         ("batchSize", Lookup(config, "batchSize").GetOr(Undefined)),
         ("batchTimeout", Lookup(config, "batchTimeout").GetOr(Undefined)),
         ("samplingRate", Lookup(config, "samplingRate").GetOr(Undefined)),
         ("retryAttempts", Lookup(config, "retryAttempts").GetOr(Undefined)),
         ("retryBackoff", Lookup(config, "retryBackoff").GetOr(Undefined))])
  }

  /** The URL `send` posts to, as written: the request manager keeps its
      constructor argument as the endpoint, and `fetch` converts that
      options object to a string, which for any plain object is
      `"[object Object]"` (a URL relative to the page). */
  function PostUrlAsWritten(config: Record<Value>): (url: string)
    ensures ManagerOptions(config).Obj? ==> url == "[object Object]"
  {
    match ManagerOptions(config)
    case Obj(_) => "[object Object]"
  }

  /** The URL as written is never the configured endpoint: not the default
      one, and not any endpoint the caller gives. */
  lemma PostUrlAsWrittenMissesEndpoint(given: Record<Value>, hostname: string)
    requires UniqueKeys(given)
    ensures var config := New(given, hostname, map[]).config;
      Lookup(config, "endpoint").Some? && Lookup(config, "endpoint").value.Str?
      && Lookup(config, "endpoint").value.s != "[object Object]"
      ==> PostUrlAsWritten(config) != Lookup(config, "endpoint").value.s
    ensures "endpoint" !in Keys(given) ==>
      PostUrlAsWritten(New(given, hostname, map[]).config) != "https://api.youranalytics.com/events"
  {
    ClientConfig.MergeConfigSpec(given, hostname, "endpoint");
    ClientConfig.DefaultValuesSpec(hostname);
  }

  /** The evidently intended URL: the configured endpoint string, as
      `new RequestsManager(this.config.endpoint!)` would have kept it;
      `None` when the setting is not a string. */
  function PostUrl(config: Record<Value>): (url: Option<string>)
    ensures url.Some? <==> Lookup(config, "endpoint").Some? && Lookup(config, "endpoint").value.Str?
  {
    var e := Lookup(config, "endpoint");
    if e.Some? && e.value.Str? then Some(e.value.s) else None
  }

  /** Events go to the endpoint the caller configured, or else to the
      default collection URL. */
  lemma PostUrlIsEndpoint(given: Record<Value>, hostname: string)
    requires UniqueKeys(given)
    ensures "endpoint" !in Keys(given) ==>
      PostUrl(New(given, hostname, map[]).config) == Some("https://api.youranalytics.com/events")
    ensures forall e :: Lookup(given, "endpoint") == Some(Str(e)) ==>
      PostUrl(New(given, hostname, map[]).config) == Some(e)
  {
    ClientConfig.MergeConfigSpec(given, hostname, "endpoint");
    ClientConfig.DefaultValuesSpec(hostname);
    LookupDefined(given, "endpoint");
  }

  /** `initialize`: stores a freshly computed fingerprint, unconditionally. */
  function Initialize(t: Tracker, page: Page): (t': Tracker)
    ensures t'.fingerprint == Some(Compute(t.config, page))
    ensures t'.config == t.config && t'.storage == t.storage
  {
    t.(fingerprint := Some(Compute(t.config, page)))
  }

  /** The cached fingerprint, computing and caching it first if absent. */
  function Ensure(t: Tracker, page: Page): (t': Tracker)
    ensures t'.fingerprint.Some? && t'.config == t.config && t'.storage == t.storage
    ensures t.fingerprint.Some? ==> t' == t
  {
    if t.fingerprint.Some? then t else Initialize(t, page)
  }

  /** `getDeviceFingerprint`: the cached fingerprint, computed on first use. */
  function GetDeviceFingerprint(t: Tracker, page: Page): (r: (Tracker, Fingerprint.DeviceFingerprint))
    ensures r.0.fingerprint == Some(r.1)
    ensures r.0.config == t.config && r.0.storage == t.storage
    ensures t.fingerprint.Some? ==> r == (t, t.fingerprint.value)
    ensures t.fingerprint.None? ==> r.1 == Compute(t.config, page)
  {
    var t' := Ensure(t, page);
    (t', t'.fingerprint.value)
  }

  /** Whether `initialize` or a first `track`/`getDeviceFingerprint` fills
      the cache, it holds the same fingerprint: the late `initialize`
      overwriting it changes nothing. */
  lemma InitializeAgrees(t: Tracker, p1: Page, p2: Page)
    requires p1.browser == p2.browser && p1.digest == p2.digest
    requires t.fingerprint.None?
    ensures Initialize(Ensure(t, p1), p2) == Ensure(t, p1)
  {
  }

  /** `track(type, user_properties = {}, payload = {})`: reads or creates the
      session id, makes sure a fingerprint is cached, and builds the event
      with shallow copies of both objects. */
  function Track(t: Tracker, page: Page, eventType: string,
                 userProperties: Option<Record<Value>>, payload: Option<Record<Value>>): (r: (Tracker, Event))
    ensures r.0.fingerprint.Some? && r.0.config == t.config
    ensures t.fingerprint.Some? ==> r.0.fingerprint == t.fingerprint
    ensures t.fingerprint.None? ==> r.0.fingerprint == Some(Compute(t.config, page))
    ensures r.1.deviceId == r.0.fingerprint.value.deviceId
    ensures r.1.clientMetadata.fingerprintConfidence == r.0.fingerprint.value.confidence
    ensures SessionKey in r.0.storage && r.1.sessionId == r.0.storage[SessionKey]
    ensures (r.1.sessionId, r.0.storage) == GetOrCreateSessionId(t.storage, page.uuid)
    ensures r.1.eventType == eventType && r.1.timestamp == page.now
    ensures r.1.clientMetadata.userAgent == page.userAgent
    ensures r.1.clientMetadata.language == page.language
    ensures r.1.clientMetadata.platform == page.platform
    ensures r.1.clientMetadata.screenResolution == page.screenWidth + "x" + page.screenHeight
    ensures r.1.clientMetadata.viewport == page.innerWidth + "x" + page.innerHeight
    ensures r.1.clientMetadata.timezone == page.timeZone
    ensures r.1.projectId == Lookup(t.config, "projectId").GetOr(Undefined)
  {
    var (sessionId, storage) := GetOrCreateSessionId(t.storage, page.uuid);
    var t' := Ensure(t.(storage := storage), page);
    var fp := t'.fingerprint.value;
    var event := Event(
      Lookup(t.config, "projectId").GetOr(Undefined),
      eventType,
      page.now,
      sessionId,
      fp.deviceId,
      Spread([], payload.GetOr([])),
      Spread([], userProperties.GetOr([])),
      ClientMetadata(
        page.userAgent, page.language, page.platform,
        page.screenWidth + "x" + page.screenHeight,
        page.innerWidth + "x" + page.innerHeight,
        page.timeZone,
        fp.confidence));
    (t', event)
  }

  /** The event carries copies equal to the given objects, `{}` when omitted. */
  lemma TrackCopies(t: Tracker, page: Page, eventType: string,
                    userProperties: Option<Record<Value>>, payload: Option<Record<Value>>)
    requires userProperties.Some? ==> UniqueKeys(userProperties.value)
    requires payload.Some? ==> UniqueKeys(payload.value)
    ensures Track(t, page, eventType, userProperties, payload).1.payload == payload.GetOr([])
    ensures Track(t, page, eventType, userProperties, payload).1.userProperties == userProperties.GetOr([])
  {
    if payload.Some? {
      CopyIsIdentity(payload.value);
    }
    if userProperties.Some? {
      CopyIsIdentity(userProperties.value);
    }
  }

  /** `identify`: a `track` call of type `identify` whose only user property
      is `user_id`, with the traits (`{}` when omitted) as payload. */
  function Identify(t: Tracker, page: Page, userId: string, traits: Option<Record<Value>>): (r: (Tracker, Event))
    ensures r == Track(t, page, "identify", Some([("user_id", Str(userId))]), traits)
  {
    Track(t, page, "identify", Some([("user_id", Str(userId))]), Some(traits.GetOr([])))
  }

  /** The identify event names the user in its only user property and
      carries the traits as its payload. */
  lemma IdentifyEvent(t: Tracker, page: Page, userId: string, traits: Option<Record<Value>>)
    requires traits.Some? ==> UniqueKeys(traits.value)
    ensures var ev := Identify(t, page, userId, traits).1;
      ev.eventType == "identify"
      && ev.userProperties == [("user_id", Str(userId))]
      && ev.payload == traits.GetOr([])
  {
    TrackCopies(t, page, "identify", Some([("user_id", Str(userId))]), traits);
  }

  /** A sequence of `track` calls, each on the page as it then is. */
  datatype Call = Call(page: Page, eventType: string,
                       userProperties: Option<Record<Value>>, payload: Option<Record<Value>>)

  function TrackAll(t: Tracker, calls: seq<Call>): (r: (Tracker, seq<Event>))
    ensures |r.1| == |calls|
    decreases |calls|
  {
    if calls == [] then (t, [])
    else
      var c := calls[0];
      var (t1, ev) := Track(t, c.page, c.eventType, c.userProperties, c.payload);
      var (t2, evs) := TrackAll(t1, calls[1..]);
      (t2, [ev] + evs)
  }

  /** Once a session and a fingerprint exist, they stay, and every event
      carries them. */
  lemma {:induction false} TrackAllSettled(t: Tracker, calls: seq<Call>)
    requires t.fingerprint.Some?
    requires SessionKey in t.storage && t.storage[SessionKey] != ""
    ensures var (t', evs) := TrackAll(t, calls);
      t'.fingerprint == t.fingerprint
      && SessionKey in t'.storage && t'.storage[SessionKey] == t.storage[SessionKey]
      && forall i :: 0 <= i < |evs| ==>
           evs[i].deviceId == t.fingerprint.value.deviceId
           && evs[i].sessionId == t.storage[SessionKey]
    decreases |calls|
  {
    if calls != [] {
      var c := calls[0];
      var (t1, ev) := Track(t, c.page, c.eventType, c.userProperties, c.payload);
      TrackAllSettled(t1, calls[1..]);
    }
  }

  /** All events tracked on one page share one device id and one session
      id: the first call fixes both, and the cached fingerprint is never
      recomputed. */
  lemma TrackAllConsistent(t: Tracker, calls: seq<Call>)
    requires calls != []
    requires calls[0].page.uuid != ""
    ensures var (t', evs) := TrackAll(t, calls);
      t'.fingerprint.Some? && SessionKey in t'.storage
      && (t.fingerprint.Some? ==> t'.fingerprint == t.fingerprint)
      && forall i :: 0 <= i < |evs| ==>
           evs[i].deviceId == t'.fingerprint.value.deviceId
           && evs[i].sessionId == t'.storage[SessionKey]
  {
    var c := calls[0];
    var first := Track(t, c.page, c.eventType, c.userProperties, c.payload);
    var rest := TrackAll(first.0, calls[1..]);
    var all := TrackAll(t, calls);
    assert all == (rest.0, [first.1] + rest.1);
    TrackStarts(t, c);
    TrackAllSettled(first.0, calls[1..]);
    forall i | 0 <= i < |all.1|
      ensures all.1[i].deviceId == all.0.fingerprint.value.deviceId
      ensures all.1[i].sessionId == all.0.storage[SessionKey]
    {
      if i > 0 {
        assert all.1[i] == rest.1[i - 1];
      }
    }
  }

  /** A `track` call with a fresh UUID leaves a non-empty session id stored. */
  lemma TrackStarts(t: Tracker, c: Call)
    requires c.page.uuid != ""
    ensures var r := Track(t, c.page, c.eventType, c.userProperties, c.payload);
      SessionKey in r.0.storage && r.0.storage[SessionKey] != ""
  {
  }
}

=== FILE: audio.dfy ===
/** The audio probe (`getAudioFingerprint`) as a state machine. After setup
    two callbacks race: the 1000 ms timer and the script processor's sample
    callback. Both run the shared one-shot `cleanup` and then resolve the
    probe's promise; only the first resolution counts. Each callback is taken
    to run to completion before the next one starts. */
module AudioProbe {
  import opened Common

  /** `audioContext.state`. */
  datatype ContextState = Running | Suspended | Closed

  /** What setting up the probe meets: no `AudioContext` class at all, an
      exception while building the graph, or a working context in some state. */
  datatype Env = NoAudioContext | SetupThrows | Available(initial: ContextState)

  /** A callback that fires: the timeout, or one batch of samples whose
      reduced signature (the float sum, as a string) is given. */
  datatype Callback = TimerFires | Samples(signature: string)

  datatype Node = Oscillator | Analyser | ScriptProcessor | Gain

  /** Teardown calls the probe makes on the audio graph. */
  datatype Action = Stop | Disconnect(node: Node) | Close

  const Unavailable: string := "audio-unavailable"
  const Disabled: string := "audio-disabled"

  /** The probe's mutable state: the `isCleanedUp` flag, whether the timeout
      is still pending, the context state, the teardown calls made so far and
      the promise's resolution. */
  datatype Probe = Probe(
    cleanedUp: bool,
    timerArmed: bool,
    context: ContextState,
    actions: seq<Action>,
    resolved: Option<string>)

  /** The probe right after setup: nothing torn down, timer running. */
  function Start(initial: ContextState): Probe
  {
    Probe(false, true, initial, [], None)
  }

  /** One full run of `cleanup`'s body on a context in state `state`: stop
      the oscillator, disconnect the four nodes, and close the context unless
      it is already closed. */
  function Teardown(state: ContextState): (t: seq<Action>)
    ensures NoDup(t)
    ensures Stop in t
    ensures Disconnect(Oscillator) in t && Disconnect(Analyser) in t
    ensures Disconnect(ScriptProcessor) in t && Disconnect(Gain) in t
    ensures Close in t <==> state != Closed
  {
    [Stop, Disconnect(Oscillator), Disconnect(Analyser), Disconnect(ScriptProcessor), Disconnect(Gain)]
    + (if state != Closed then [Close] else [])
  }

  /** `cleanup`: does nothing once the flag is set; otherwise sets it and
      tears the graph down. */
  function Cleanup(p: Probe): Probe
  {
    if p.cleanedUp then p
    else p.(cleanedUp := true, actions := p.actions + Teardown(p.context), context := Closed)
  }

  /** `resolve(v)`: a promise settles once; later calls are ignored. */
  function Resolve(p: Probe, v: string): Probe
  {
    if p.resolved.None? then p.(resolved := Some(v)) else p
  }

  /** One callback. The timer fires at most once and not after
      `clearTimeout`; the sample callback clears the timer, cleans up and
      resolves with the signature. */
  function Step(p: Probe, cb: Callback): Probe
  {
    match cb
    case TimerFires =>
      if p.timerArmed then Resolve(Cleanup(p.(timerArmed := false)), Disabled) else p
    case Samples(sig) =>
      Resolve(Cleanup(p.(timerArmed := false)), sig)
  }

  /** Callbacks in the order they fire. */
  function Run(p: Probe, cbs: seq<Callback>): Probe
    decreases |cbs|
  {
    if cbs == [] then p else Run(Step(p, cbs[0]), cbs[1..])
  }

  /** The state the callbacks keep: the teardown log is empty before cleanup
      and exactly one teardown of the initial context after it; a resolved
      probe is cleaned up; an unresolved probe still has its timer. */
  predicate Inv(p: Probe, initial: ContextState)
  {
    && p.actions == (if p.cleanedUp then Teardown(initial) else [])
    && p.context == (if p.cleanedUp then Closed else initial)
    && (p.resolved.Some? ==> p.cleanedUp)
    && (p.timerArmed || p.resolved.Some?)
  }

  lemma {:induction false} RunKeepsInv(p: Probe, cbs: seq<Callback>, initial: ContextState)
    requires Inv(p, initial)
    ensures Inv(Run(p, cbs), initial)
    ensures p.resolved.Some? ==> Run(p, cbs).resolved == p.resolved
    decreases |cbs|
  {
    if cbs != [] {
      var q := Step(p, cbs[0]);
      StepKeepsInv(p, cbs[0], initial);
      assert Run(p, cbs) == Run(q, cbs[1..]);
      RunKeepsInv(q, cbs[1..], initial);
    }
  }

  /** One callback keeps the invariant and never changes a settled result. */
  lemma StepKeepsInv(p: Probe, cb: Callback, initial: ContextState)
    requires Inv(p, initial)
    ensures Inv(Step(p, cb), initial)
    ensures p.resolved.Some? ==> Step(p, cb).resolved == p.resolved
  {
  }

  lemma {:induction false} RunSnoc(p: Probe, cbs: seq<Callback>, cb: Callback)
    ensures Run(p, cbs + [cb]) == Step(Run(p, cbs), cb)
    decreases |cbs|
  {
    if cbs != [] {
      assert (cbs + [cb])[1..] == cbs[1..] + [cb];
      RunSnoc(Step(p, cbs[0]), cbs[1..], cb);
    }
  }

  /** The outcome of the probe: the string its promise resolves to and the
      teardown calls made. */
  datatype Outcome = Outcome(result: string, actions: seq<Action>)

  /** `getAudioFingerprint`. The timer always fires eventually unless it was
      cleared, so the callbacks that fire are `schedule` followed by a final
      timer firing. */
  function Fingerprint(env: Env, schedule: seq<Callback>): Outcome
  {
    match env
    case NoAudioContext => Outcome(Unavailable, [])
    case SetupThrows => Outcome(Unavailable, [])
    case Available(initial) =>
      var p := Run(Start(initial), schedule + [TimerFires]);
      RunSnoc(Start(initial), schedule, TimerFires);
      RunKeepsInv(Start(initial), schedule, initial);
      Outcome(p.resolved.value, p.actions)
  }

  /** A missing `AudioContext` class or a setup exception yields
      `'audio-unavailable'` and touches no audio node. */
  lemma UnavailablePaths(env: Env, schedule: seq<Callback>)
    requires env.NoAudioContext? || env.SetupThrows?
    ensures Fingerprint(env, schedule) == Outcome(Unavailable, [])
  {
  }

  /** The first callback on a fresh probe resolves it and keeps the invariant. */
  lemma FirstStep(initial: ContextState, cb: Callback)
    ensures Inv(Step(Start(initial), cb), initial)
    ensures Step(Start(initial), cb).resolved == Some(if cb.TimerFires? then Disabled else cb.signature)
  {
  }

  /** The outcome of a working probe is read off the run's final state. */
  lemma AvailableRun(initial: ContextState, schedule: seq<Callback>)
    ensures var last := Run(Start(initial), schedule + [TimerFires]);
      last.resolved.Some? && Fingerprint(Available(initial), schedule) == Outcome(last.resolved.value, last.actions)
  {
    RunSnoc(Start(initial), schedule, TimerFires);
    RunKeepsInv(Start(initial), schedule, initial);
  }

  /** With a working context the first callback decides the result (timer
      first gives `'audio-disabled'`, samples first give their signature), and
      whatever fires afterwards, the graph is torn down exactly once (see
      `Teardown`: one `stop`, one `disconnect` per node, and one `close`
      unless the context was already closed). */
  lemma {:induction false} AvailableOutcome(initial: ContextState, schedule: seq<Callback>)
    ensures Fingerprint(Available(initial), schedule).actions == Teardown(initial)
    ensures Fingerprint(Available(initial), schedule).result ==
      if schedule == [] || schedule[0].TimerFires? then Disabled else schedule[0].signature
  {
    var cbs := schedule + [TimerFires];
    assert cbs[0] == if schedule == [] then TimerFires else schedule[0];
    var first := Step(Start(initial), cbs[0]);
    FirstStep(initial, cbs[0]);
    assert Run(Start(initial), cbs) == Run(first, cbs[1..]);
    RunKeepsInv(first, cbs[1..], initial);
    AvailableRun(initial, schedule);
  }
}

=== FILE: client_config.dfy ===
/** The tracker's configuration object and its defaults (`DEFAULT_CONFIG`),
    and the constructor's merge `{...DEFAULT_CONFIG, ...config}`. */
module ClientConfig {
  import opened Common
  import opened Records
  import opened Json

  /** The names `DEFAULT_CONFIG` sets, in its property order. */
  const DefaultNames: seq<string> := [
    "endpoint", "cookieDomain", "debug", "autoTrack", "trackPageViews", "trackClicks",
    "trackForms", "samplingRate", "batchSize", "batchTimeout", "retryAttempts",
    "retryBackoff", "privacyMode", "gdprCompliance", "dataRetentionDays",
    "allowedDomains", "blockedDomains", "userIdKey", "anonymizeIp", "eventFilters",
    "sessionTimeout", "maxEventsPerPage", "compressionEnabled"]

  /** The default values, aligned with `DefaultNames`. `cookieDomain` is the
      page's `window.location.hostname`, read when the module loads. */
  function DefaultValues(hostname: string): (vs: seq<Value>)
    ensures |vs| == |DefaultNames|
  {
    [ Str("https://api.youranalytics.com/events"), Str(hostname),
      Bool(false), Bool(true), Bool(true), Bool(true), Bool(true),
      Num(1.0), Num(10.0), Num(2000.0), Num(3.0), Num(1000.0),
      Str("balanced"), Bool(true), Num(90.0),
      Arr([]), Arr([]), Str("user_id"), Bool(true),
      Obj([("include", Arr([])), ("exclude", Arr([]))]),
      Num(1800000.0), Num(100.0), Bool(false) ]
  }

  /** `DEFAULT_CONFIG`. */
  function DefaultConfig(hostname: string): Record<Value>
  {
    var vs := DefaultValues(hostname);
    seq(|DefaultNames|, i requires 0 <= i < |DefaultNames| => (DefaultNames[i], vs[i]))
  }

  /** The defaults form a well-formed object whose keys are `DefaultNames`;
      there is no `projectId` among them. */
  lemma DefaultConfigShape(hostname: string)
    ensures Keys(DefaultConfig(hostname)) == DefaultNames
    ensures UniqueKeys(DefaultConfig(hostname))
    ensures "projectId" !in Keys(DefaultConfig(hostname))
  {
    var d := DefaultConfig(hostname);
    var ks := Keys(d);
    forall i | 0 <= i < |ks|
      ensures ks[i] == DefaultNames[i]
    {
      assert d[i].0 == DefaultNames[i];
    }
    assert ks == DefaultNames;
    DefaultNamesDistinct();
  }

  lemma DefaultNamesDistinct()
    ensures NoDup(DefaultNames)
    ensures "projectId" !in DefaultNames
  {
    DefaultNamesNoDup();
    var s := DefaultNames;
    forall i | 0 <= i < |s|
      ensures s[i] != "projectId"
    {
      assert |s[i]| != 9 || s[i][0] != 'p';
    }
  }

  lemma DefaultNamesNoDup()
    ensures NoDup(DefaultNames)
  {
    var s := DefaultNames;
    forall i, j | 0 <= i < j < |s|
      ensures s[i] != s[j]
    {
      assert |s[i]| != |s[j]| || s[i][0] != s[j][0];
    }
  }

  /** The documented defaults: balanced privacy, every event sampled, ten
      events per batch and a 30-minute session. */
  lemma DefaultValuesSpec(hostname: string)
    ensures Lookup(DefaultConfig(hostname), "privacyMode") == Some(Str("balanced"))
    ensures Lookup(DefaultConfig(hostname), "samplingRate") == Some(Num(1.0))
    ensures Lookup(DefaultConfig(hostname), "batchSize") == Some(Num(10.0))
    ensures Lookup(DefaultConfig(hostname), "sessionTimeout") == Some(Num(30.0 * 60.0 * 1000.0))
    ensures Lookup(DefaultConfig(hostname), "cookieDomain") == Some(Str(hostname))
    ensures Lookup(DefaultConfig(hostname), "endpoint") == Some(Str("https://api.youranalytics.com/events"))
  {
    DefaultConfigShape(hostname);
    var d := DefaultConfig(hostname);
    LookupAt(d, 0);
    LookupAt(d, 1);
    LookupAt(d, 7);
    LookupAt(d, 8);
    LookupAt(d, 12);
    LookupAt(d, 20);
  }

  /** The constructor's `{...DEFAULT_CONFIG, ...config}`. */
  function MergeConfig(given: Record<Value>, hostname: string): Record<Value>
  {
    Spread(Spread([], DefaultConfig(hostname)), given)
  }

  /** Every setting the caller gives wins, every other setting is the
      default, and the result is a well-formed object. */
  lemma MergeConfigSpec(given: Record<Value>, hostname: string, k: string)
    requires UniqueKeys(given)
    ensures UniqueKeys(MergeConfig(given, hostname))
    ensures Lookup(MergeConfig(given, hostname), k) ==
      if k in Keys(given) then Lookup(given, k) else Lookup(DefaultConfig(hostname), k)
  {
    DefaultConfigShape(hostname);
    CopyIsIdentity(DefaultConfig(hostname));
    SpreadLookup(DefaultConfig(hostname), given, k);
    SpreadUnique(DefaultConfig(hostname), given);
  }
}

=== FILE: common.dfy ===
/** Small shared vocabulary: optional values and duplicate-free sequences. */
module Common {

  /** A value that may be absent (JavaScript's `undefined`/`null` for a lookup). */
  datatype Option<+T> = None | Some(value: T) {

    /** The wrapped value, or `default` when absent. */
    function GetOr(default: T): T {
      match this
      case Some(v) => v
      case None => default
    }
  }

  /** No element occurs twice. */
  predicate NoDup<T(==)>(s: seq<T>) {
    forall i, j :: 0 <= i < j < |s| ==> s[i] != s[j]
  }

  /** The elements of `s` that are not in `drop`, in their original order
      (`Array.prototype.filter(x => !drop.includes(x))`). */
  function Without<T(==,!new)>(s: seq<T>, drop: seq<T>): (r: seq<T>)
    ensures |r| <= |s|
    ensures forall x :: x in r <==> x in s && x !in drop
    ensures NoDup(s) ==> NoDup(r)
  {
    if s == [] then []
    else if s[0] in drop then Without(s[1..], drop)
    else [s[0]] + Without(s[1..], drop)
  }
}

=== FILE: dom.dfy ===
/** The tracker's two walks up the DOM from an event target:
    `shouldIgnoreElement` and `getElementPath`. An element's ancestry is
    given as the chain target, parent, grandparent, ... ending where
    `parentElement` is null. */
module Dom {
  import opened Strings

  /** `element.className`: a plain string, or an `SVGAnimatedString` object
      on SVG elements. */
  datatype ClassAttr = Plain(s: string) | Animated(baseVal: string)

  datatype Element = Element(
    tagName: string,
    id: string,
    className: ClassAttr,
    hasIgnoreAttr: bool,   // `getAttribute('data-analytics-ignore') !== null`
    isBody: bool)          // `element === document.body`

  /** The part of the chain both walks visit: from the target up to, and
      excluding, the first `body`. */
  function Walked(chain: seq<Element>): (w: seq<Element>)
    ensures |w| <= |chain| && w == chain[..|w|]
    ensures forall i :: 0 <= i < |w| ==> !w[i].isBody
    ensures |w| < |chain| ==> chain[|w|].isBody
  {
    if chain == [] || chain[0].isBody then [] else [chain[0]] + Walked(chain[1..])
  }

  /** `shouldIgnoreElement`: is some visited element marked to be ignored? */
  function ShouldIgnore(chain: seq<Element>): (b: bool)
    ensures b <==> exists i :: 0 <= i < |Walked(chain)| && Walked(chain)[i].hasIgnoreAttr
  {
    if chain == [] || chain[0].isBody then false
    else if chain[0].hasIgnoreAttr then
      assert Walked(chain)[0] == chain[0];
      true
    else
      var rest := ShouldIgnore(chain[1..]);
      assert Walked(chain) == [chain[0]] + Walked(chain[1..]);
      rest
  }

  /** An empty chain, or a target that is `body` itself, is never ignored. */
  lemma IgnoreNothingAtBody(chain: seq<Element>)
    requires chain == [] || chain[0].isBody
    ensures !ShouldIgnore(chain)
  {
  }

  /** An ignore mark at or above `body` has no effect. */
  lemma IgnoreStopsAtBody(below: seq<Element>, above: seq<Element>)
    requires forall i :: 0 <= i < |below| ==> !below[i].isBody && !below[i].hasIgnoreAttr
    requires above != [] && above[0].isBody
    ensures !ShouldIgnore(below + above)
  {
    var chain := below + above;
    WalkedLength(chain, |below|);
    assert chain[..|below|] == below;
  }

  /** The class names an element contributes: the string itself, or the SVG
      value's `baseVal || ''`. */
  function ClassNames(c: ClassAttr): string
  {
    match c
    case Plain(s) => s
    case Animated(b) => b
  }

  /** The truth value of `current.className`: a string is truthy when
      non-empty, an object always. */
  predicate ClassAttrTruthy(c: ClassAttr)
  {
    c.Animated? || c.s != ""
  }

  /** One path segment: the lower-cased tag, then `#id`, or failing an id the
      class names joined by dots. */
  function Segment(e: Element): string
  {
    var tag := Lower(e.tagName);
    if e.id != "" then tag + "#" + e.id
    else if ClassAttrTruthy(e.className) && ClassNames(e.className) != "" then
      tag + "." + Join(Split(ClassNames(e.className), ' '), ".")
    else tag
  }

  /** A non-empty id wins over the class; otherwise a non-empty class is
      appended with every space turned into a dot; otherwise the tag alone. */
  lemma SegmentSpec(e: Element)
    ensures e.id != "" ==> Segment(e) == Lower(e.tagName) + "#" + e.id
    ensures e.id == "" && ClassNames(e.className) != "" ==>
              Segment(e) == Lower(e.tagName) + "." + Replace(ClassNames(e.className), ' ', '.')
    ensures e.id == "" && ClassNames(e.className) == "" ==> Segment(e) == Lower(e.tagName)
  {
    SplitJoinReplaces(ClassNames(e.className), ' ', '.');
  }

  /** The reference path: one segment per visited element, outermost first. */
  function RootFirst(chain: seq<Element>): (segs: seq<string>)
  {
    var w := Walked(chain);
    seq(|w|, i requires 0 <= i < |w| => Segment(w[|w| - 1 - i]))
  }

  /** `getElementPath`: walks up from the target, `unshift`ing each segment,
      and joins the segments with `" > "`. */
  method ElementPath(chain: seq<Element>) returns (path: string)
    ensures path == Join(RootFirst(chain), " > ")
  {
    var parts: seq<string> := [];
    var k := 0;
    while k < |chain| && !chain[k].isBody
      invariant 0 <= k <= |chain|
      invariant forall i :: 0 <= i < k ==> !chain[i].isBody
      invariant |parts| == k
      invariant forall i :: 0 <= i < k ==> parts[i] == Segment(chain[k - 1 - i])
    {
      parts := [Segment(chain[k])] + parts;
      k := k + 1;
    }
    WalkedLength(chain, k);
    var w := Walked(chain);
    assert |w| == k;
    forall i | 0 <= i < k
      ensures parts[i] == RootFirst(chain)[i]
    {
      assert w[k - 1 - i] == chain[k - 1 - i];
    }
    assert parts == RootFirst(chain);
    path := Join(parts, " > ");
  }

  /** The walk stops at the first `body` or at the end of the chain. */
  lemma {:induction false} WalkedLength(chain: seq<Element>, k: int)
    requires 0 <= k <= |chain|
    requires forall i :: 0 <= i < k ==> !chain[i].isBody
    requires k == |chain| || chain[k].isBody
    ensures Walked(chain) == chain[..k]
  {
    if k > 0 {
      WalkedLength(chain[1..], k - 1);
      assert chain[1..][..k - 1] == chain[1..k];
      assert chain[..k] == [chain[0]] + chain[1..k];
    }
  }
}

=== FILE: fingerprint.dfy ===
/** `Fingerprinter.getFingerprint`: collect the components, filter them by
    privacy tier, hash the filtered record to a hex device id and score how
    many signals it holds. The digest (SHA-256 over the UTF-8 bytes of
    `JSON.stringify` of the filtered record) is a parameter: it is a pure
    function of the record, which is all that reproducibility needs. */
module Fingerprint {
  import opened Common
  import opened Records
  import opened Json
  import Hex
  import opened Privacy
  import opened Probes

  /** Constructor options; an absent `privacyMode` means `'balanced'`. */
  datatype Options = Options(privacyMode: Option<string>, excludeComponents: seq<string>)

  datatype DeviceFingerprint = DeviceFingerprint(deviceId: string, confidence: real, components: Record<Value>)

  /** SHA-256 of the serialised record. */
  type Digest = Record<Value> -> seq<Hex.byte>

  /** A component that counts as a signal: not `undefined`, not `''` and not
      an empty array. (`0`, `false` and `null` do count.) */
  predicate Signal(v: Value)
  {
    v != Undefined && v != Str("") && v != Arr([])
  }

  /** Number of values of `r` that are signals. */
  function SignalCount(r: Record<Value>): (n: nat)
    ensures n <= |r|
  {
    if r == [] then 0 else (if Signal(r[0].1) then 1 else 0) + SignalCount(r[1..])
  }

  /** `SignalCount` counts the positions of `r` that hold a signal. */
  lemma SignalCountSpec(r: Record<Value>)
    ensures SignalCount(r) == |set i | 0 <= i < |r| && Signal(r[i].1)|
  {
    SignalCountFrom(r, 0);
    assert r[0..] == r;
  }

  lemma {:induction false} SignalCountFrom(r: Record<Value>, lo: int)
    requires 0 <= lo <= |r|
    ensures SignalCount(r[lo..]) == |set i | lo <= i < |r| && Signal(r[i].1)|
    decreases |r| - lo
  {
    var s0 := set i | lo <= i < |r| && Signal(r[i].1);
    if lo == |r| {
      assert s0 == {};
    } else {
      SignalCountFrom(r, lo + 1);
      var s1 := set i | lo + 1 <= i < |r| && Signal(r[i].1);
      assert r[lo..][1..] == r[lo + 1..];
      assert r[lo..][0] == r[lo];
      if Signal(r[lo].1) {
        assert s0 == s1 + {lo};
        assert lo !in s1;
      } else {
        assert s0 == s1;
      }
    }
  }

  /** `availableSignals / totalSignals * 100`, the denominator being the 22
      collectible names whatever the tier. */
  function Confidence(enabled: Record<Value>): real
  {
    SignalCount(enabled) as real / |CollectibleNames| as real * 100.0
  }

  /** `getFingerprint`. */
  function GetFingerprint(browser: BrowserReads, options: Options, digest: Digest): (fp: DeviceFingerprint)
    ensures Hex.Decode(fp.deviceId) == Some(digest(fp.components))
    ensures |fp.deviceId| == 2 * |digest(fp.components)|
    ensures fp.confidence == SignalCount(fp.components) as real * 100.0 / 22.0
    ensures 0.0 <= fp.confidence <= 100.0
    ensures forall k :: k in Keys(fp.components) ==> k !in options.excludeComponents
    ensures ModeOf(options.privacyMode) == Strict ==>
              (forall k :: k in Keys(fp.components) ==> k in StrictNames)
              && fp.confidence <= 400.0 / 22.0
    ensures ModeOf(options.privacyMode) == Balanced ==>
              forall k :: k in Keys(fp.components) ==> k in BalancedNames
  {
    var mode := ModeOf(options.privacyMode);
    var components := Components(browser, mode);
    ComponentsShape(browser, mode);
    var enabled := FilterByPrivacy(components, mode, options.excludeComponents);
    FilterKeys(components, mode, options.excludeComponents);
    Hex.DecodeEncode(digest(enabled));
    Hex.EncodeShape(digest(enabled));
    DeviceFingerprint(Hex.Encode(digest(enabled)), Confidence(enabled), enabled)
  }

  /** The filtered record, hence its serialisation, lists its keys in
      allow-list order (full mode: collection order), so the device id does
      not depend on the order the probes finish in. */
  lemma SerialisationOrder(browser: BrowserReads, options: Options, digest: Digest)
    ensures var mode := ModeOf(options.privacyMode);
      Keys(GetFingerprint(browser, options, digest).components)
      == PresentNames(Components(browser, mode), Without(AllowedNames(mode, Components(browser, mode)), options.excludeComponents))
  {
    var mode := ModeOf(options.privacyMode);
    ComponentsShape(browser, mode);
    FilterOrder(Components(browser, mode), mode, options.excludeComponents);
  }

  /** Identical component values and options give an identical device id
      and confidence. */
  lemma Deterministic(b1: BrowserReads, b2: BrowserReads, options: Options, digest: Digest)
    requires forall k :: Lookup(Components(b1, ModeOf(options.privacyMode)), k)
                      == Lookup(Components(b2, ModeOf(options.privacyMode)), k)
    ensures GetFingerprint(b1, options, digest) == GetFingerprint(b2, options, digest)
  {
    var mode := ModeOf(options.privacyMode);
    ComponentsShape(b1, mode);
    ComponentsShape(b2, mode);
    FilterDeterministic(Components(b1, mode), Components(b2, mode), mode, options.excludeComponents);
  }

  /** The enabled components are exactly the allowed, non-excluded, defined
      collected ones, with their collected values. */
  lemma EnabledComponents(browser: BrowserReads, options: Options, digest: Digest, k: string)
    ensures var mode := ModeOf(options.privacyMode);
      var c := Components(browser, mode);
      Lookup(GetFingerprint(browser, options, digest).components, k)
      == if k in AllowedNames(mode, c) && k !in options.excludeComponents && Present(c, k) then Lookup(c, k) else None
  {
  }

  /** How the collectors' fallbacks score: an empty canvas URL, an empty
      device list and the strict-mode empty plugin list are not signals,
      while the WebGL fallback `{render: '', vendor: ''}` is an object and
      so always counts. */
  lemma CollectorSignals(canvas: CanvasRead, webgl: WebGLRead, media: MediaRead, mode: Mode, names: seq<string>)
    ensures Signal(CanvasComponent(canvas)) <==> canvas.Drawn? && canvas.dataUrl != ""
    ensures Signal(WebGLComponent(webgl))
    ensures Signal(MediaComponent(media)) <==> media.Devices? && media.devices != []
    ensures Signal(PluginsComponent(mode, names)) <==> mode != Strict && names != []
  {
    if media.Devices? && media.devices != [] {
      assert MediaComponent(media).items[0] == Str(media.devices[0].0 + ":" + media.devices[0].1);
    }
    if mode != Strict && names != [] {
      assert PluginsComponent(mode, names).items[0] == Str(names[0]);
    }
  }

  /** The confidence of a fingerprint is the share of its positions that
      hold a signal; a collector that fell back to `''` or `[]` occupies a
      position that does not count, while the WebGL fallback does. */
  lemma ConfidenceCounts(browser: BrowserReads, options: Options, digest: Digest)
    ensures var fp := GetFingerprint(browser, options, digest);
      fp.confidence == |set i | 0 <= i < |fp.components| && Signal(fp.components[i].1)| as real * 100.0 / 22.0
    ensures var fp := GetFingerprint(browser, options, digest);
      var mode := ModeOf(options.privacyMode);
      (Lookup(fp.components, "canvas").Some? ==> (Signal(Lookup(fp.components, "canvas").value) <==> browser.canvas.Drawn? && browser.canvas.dataUrl != ""))
      && (Lookup(fp.components, "mediaDevices").Some? ==> (Signal(Lookup(fp.components, "mediaDevices").value) <==> browser.media.Devices? && browser.media.devices != []))
      && (Lookup(fp.components, "plugins").Some? ==> (Signal(Lookup(fp.components, "plugins").value) <==> mode != Strict && browser.pluginNames != []))
      && (mode == Full && "webgl" !in options.excludeComponents ==>
            Lookup(fp.components, "webgl") == Some(WebGLComponent(browser.webgl)) && Signal(WebGLComponent(browser.webgl)))
  {
    var fp := GetFingerprint(browser, options, digest);
    var mode := ModeOf(options.privacyMode);
    SignalCountSpec(fp.components);
    ComponentsSpec(browser, mode);
    CollectorSignals(browser.canvas, browser.webgl, browser.media, mode, browser.pluginNames);
    EnabledComponents(browser, options, digest, "canvas");
    EnabledComponents(browser, options, digest, "mediaDevices");
    EnabledComponents(browser, options, digest, "plugins");
    EnabledComponents(browser, options, digest, "webgl");
    ComponentsShape(browser, mode);
  }
}

=== FILE: hex.dfy ===
/** The last step of `hashString`: each digest byte is written with
    `b.toString(16).padStart(2, '0')` and the pieces are concatenated. */
module Hex {
  import opened Common

  newtype byte = b: int | 0 <= b < 256

  const Digits: string := "0123456789abcdef"

  /** `n.toString(16)` for a non-negative integer: shortest base-16 numeral, lower case. */
  function Radix16(n: nat): (s: string)
    ensures |s| >= 1
    ensures forall i :: 0 <= i < |s| ==> s[i] in Digits
  {
    if n < 16 then [Digits[n]] else Radix16(n / 16) + [Digits[n % 16]]
  }

  /** `s.padStart(width, c)`. */
  function PadStart(s: string, width: nat, c: char): (r: string)
  {
    if |s| >= width then s else seq(width - |s|, _ => c) + s
  }

  /** One digest byte as the source writes it. */
  function ByteHex(b: byte): string
  {
    PadStart(Radix16(b as nat), 2, '0')
  }

  /** The hex form of a whole digest. */
  function Encode(bs: seq<byte>): (s: string)
  {
    if bs == [] then "" else ByteHex(bs[0]) + Encode(bs[1..])
  }

  /** A byte is written as exactly two lower-case hex digits, high nibble
      first, zero-padded. */
  lemma ByteHexDigits(b: byte)
    ensures ByteHex(b) == [Digits[b / 16], Digits[b % 16]]
  {
    if b < 16 {
      assert Radix16(b as nat) == [Digits[b]];
      assert Digits[0] == '0';
    } else {
      assert Radix16(b as nat) == Radix16((b / 16) as nat) + [Digits[b % 16]];
    }
  }

  /** Position of a hex digit, the inverse of indexing `Digits`. */
  function DigitValue(c: char): (d: Option<nat>)
    ensures d.Some? ==> d.value < 16 && Digits[d.value] == c
    ensures c in Digits ==> d.Some?
  {
    if '0' <= c <= '9' then Some(c as nat - '0' as nat)
    else if 'a' <= c <= 'f' then Some(c as nat - 'a' as nat + 10)
    else None
  }

  /** Reads a string of hex digit pairs back into bytes; `None` for an odd
      length or a character that is not a lower-case hex digit. */
  function Decode(s: string): Option<seq<byte>>
  {
    if s == [] then Some([])
    else if |s| == 1 then None
    else
      match (DigitValue(s[0]), DigitValue(s[1]), Decode(s[2..]))
      case (Some(hi), Some(lo), Some(rest)) => Some([(hi * 16 + lo) as byte] + rest)
      case _ => None
  }

  /** The device id has two lower-case hex characters per digest byte. */
  lemma {:induction false} EncodeShape(bs: seq<byte>)
    ensures |Encode(bs)| == 2 * |bs|
    ensures forall i :: 0 <= i < |Encode(bs)| ==> Encode(bs)[i] in Digits
  {
    if bs != [] {
      ByteHexDigits(bs[0]);
      EncodeShape(bs[1..]);
    }
  }

  /** Reading a digit back gives its position. */
  lemma DigitRoundTrip(d: nat)
    requires d < 16
    ensures DigitValue(Digits[d]) == Some(d)
  {
  }

  /** Decoding a leading digit pair yields one byte before the rest. */
  lemma DecodePair(hi: nat, lo: nat, rest: string, tail: seq<byte>)
    requires hi < 16 && lo < 16
    requires Decode(rest) == Some(tail)
    ensures Decode([Digits[hi], Digits[lo]] + rest) == Some([(hi * 16 + lo) as byte] + tail)
  {
    var s := [Digits[hi], Digits[lo]] + rest;
    assert s[2..] == rest;
    DigitRoundTrip(hi);
    DigitRoundTrip(lo);
  }

  /** Decoding the hex form gives the digest back. */
  lemma {:induction false} DecodeEncode(bs: seq<byte>)
    ensures Decode(Encode(bs)) == Some(bs)
  {
    if bs != [] {
      var b := bs[0];
      var hi: nat, lo: nat := (b / 16) as nat, (b % 16) as nat;
      ByteHexDigits(b);
      DecodeEncode(bs[1..]);
      assert Encode(bs) == [Digits[hi], Digits[lo]] + Encode(bs[1..]);
      DecodePair(hi, lo, Encode(bs[1..]), bs[1..]);
      assert (hi * 16 + lo) as byte == b;
      assert [b] + bs[1..] == bs;
    }
  }

  /** Different digests never give the same device id. */
  lemma EncodeInjective(a: seq<byte>, b: seq<byte>)
    ensures Encode(a) == Encode(b) ==> a == b
  {
    DecodeEncode(a);
    DecodeEncode(b);
  }
}

=== FILE: ingest.dfy ===
/** The ingestion endpoint `POST /events`: accepts one event or a
    `{batch: [...]}` body, flattens each event into a row with fixed
    fallbacks, inserts all rows in one call, and answers 200 or 500. */
module Ingest {
  import opened Common
  import opened Records
  import opened Json

  /** What the handler reads from the request: the parsed JSON body,
      `req.ip` and `req.socket.remoteAddress`. */
  datatype Request = Request(body: Value, ip: Value, remoteAddress: Value)

  /** One row of the `events` table. `timestamp` is the value handed to
      `new Date(...)`; `userProperties` and `payload` are the values handed
      to `JSON.stringify`. */
  datatype Row = Row(
    projectId: Value, eventType: Value, timestamp: Value,
    sessionId: Value, deviceId: Value,
    userAgent: Value, ipAddress: Value, language: Value, platform: Value,
    screenResolution: Value, viewport: Value, timezone: Value,
    fingerprintConfidence: Value,
    userProperties: Value, payload: Value,
    url: Value, referrer: Value, pageTitle: Value,
    sampleRate: Value)

  datatype Response = Response(status: nat, body: Record<string>)

  const Success: Response := Response(200, [("status", "success")])
  const Failure: Response := Response(500, [("status", "error"), ("message", "Failed to process events")])

  /** The events of a request: the elements of the body's `batch` property
      when that is an array, otherwise the body itself as the only event;
      `None` when reading `batch` throws (a `null` or missing body). */
  function EventsOf(body: Value): (r: Option<seq<Value>>)
    ensures r.None? <==> body == Null || body == Undefined
    ensures r.Some? && OptMember(body, "batch").Arr? ==> r.value == OptMember(body, "batch").items
    ensures r.Some? && !OptMember(body, "batch").Arr? ==> r.value == [body]
  {
    match Member(body, "batch")
    case None => None
    case Some(batch) => if batch.Arr? then Some(batch.items) else Some([body])
  }

  /** The client address, shared by every row of the request: the request's
      `ip` when truthy, else the socket's remote address when truthy, else the
      empty string. */
  function IpAddress(req: Request): Value
  {
    Or(Or(req.ip, req.remoteAddress), Str(""))
  }

  /** The mapping callback for one event; `None` when reading a property of
      it throws (a `null` or `undefined` batch element). */
  function ToRow(event: Value, ip: Value): (r: Option<Row>)
    ensures r.None? <==> event == Null || event == Undefined
  {
    if event == Null || event == Undefined then None
    else
      var meta := OptMember(event, "client_metadata");
      var payload := OptMember(event, "payload");
      Some(Row(
        projectId := OptMember(event, "project_id"),
        eventType := OptMember(event, "type"),
        timestamp := OptMember(event, "timestamp"),
        sessionId := OptMember(event, "session_id"),
        deviceId := OptMember(event, "device_id"),
        userAgent := Or(OptMember(meta, "user_agent"), Str("")),
        ipAddress := ip,
        language := Or(OptMember(meta, "language"), Str("")),
        platform := Or(OptMember(meta, "platform"), Str("")),
        screenResolution := Or(OptMember(meta, "screen_resolution"), Str("")),
        viewport := Or(OptMember(meta, "viewport"), Str("")),
        timezone := Or(OptMember(meta, "timezone"), Str("")),
        fingerprintConfidence := Or(OptMember(meta, "fingerprint_confidence"), Num(0.0)),
        userProperties := Or(OptMember(event, "user_properties"), Obj([])),
        payload := Or(payload, Obj([])),
        url := Or(OptMember(payload, "url"), Str("")),
        referrer := Or(OptMember(payload, "referrer"), Str("")),
        pageTitle := Or(OptMember(payload, "title"), Str("")),
        sampleRate := Or(OptMember(event, "sample_rate"), Num(1.0))))
  }

  /** Formatting all events: every row, in order, or `None` as soon as one
      event makes the formatting callback throw. */
  function FormatAll(events: seq<Value>, ip: Value): (r: Option<seq<Row>>)
    ensures r.Some? <==> forall i :: 0 <= i < |events| ==> ToRow(events[i], ip).Some?
    ensures r.Some? ==> |r.value| == |events|
    ensures r.Some? ==> forall i :: 0 <= i < |events| ==> r.value[i] == ToRow(events[i], ip).value
    decreases |events|
  {
    if events == [] then Some([])
    else
      var head := ToRow(events[0], ip);
      var rest := FormatAll(events[1..], ip);
      assert forall i :: 0 <= i < |events| - 1 ==> events[1..][i] == events[i + 1];
      if head.Some? && rest.Some? then Some([head.value] + rest.value) else None
  }

  /** The rows a request produces, or `None` when formatting throws. */
  function RowsOf(req: Request): Option<seq<Row>>
  {
    match EventsOf(req.body)
    case None => None
    case Some(events) => FormatAll(events, IpAddress(req))
  }

  /** The handler. `insert` says whether `clickhouse.insertEvents` succeeds
      for the given rows; every exception becomes the same 500 answer. */
  function Handle(req: Request, insert: seq<Row> -> bool): (resp: Response)
    ensures resp == Success || resp == Failure
    ensures resp == Success <==> RowsOf(req).Some? && insert(RowsOf(req).value)
  {
    match RowsOf(req)
    case None => Failure
    case Some(rows) => if insert(rows) then Success else Failure
  }

  /** A body whose `batch` is an array yields one row per element, in
      order; any other body that is not `null` or `undefined`, a top-level
      array included, is itself the single event. */
  lemma BatchOrSingle(req: Request)
    requires req.body != Null && req.body != Undefined
    ensures OptMember(req.body, "batch").Arr? ==>
      var batch := OptMember(req.body, "batch").items;
      (RowsOf(req).Some? <==> forall i :: 0 <= i < |batch| ==> batch[i] != Null && batch[i] != Undefined)
      && (RowsOf(req).Some? ==>
            |RowsOf(req).value| == |batch|
            && forall i :: 0 <= i < |batch| ==> RowsOf(req).value[i] == ToRow(batch[i], IpAddress(req)).value)
    ensures !OptMember(req.body, "batch").Arr? ==>
      RowsOf(req) == Some([ToRow(req.body, IpAddress(req)).value])
  {
    if !OptMember(req.body, "batch").Arr? {
      var rows := FormatAll([req.body], IpAddress(req));
      assert EventsOf(req.body) == Some([req.body]);
      assert rows.Some? && rows.value == [ToRow(req.body, IpAddress(req)).value];
    }
  }

  /** The identity fields pass through unchanged, and every field with a
      fallback holds its source value when that is truthy and exactly its
      fallback (`''`, `0`, `{}` or `1`) otherwise; the page fields are read
      from the payload. */
  lemma RowFallbacks(event: Value, ip: Value)
    requires event != Null && event != Undefined
    ensures var row := ToRow(event, ip).value;
      var meta := OptMember(event, "client_metadata");
      var payload := OptMember(event, "payload");
      && row.projectId == OptMember(event, "project_id")
      && row.eventType == OptMember(event, "type")
      && row.timestamp == OptMember(event, "timestamp")
      && row.sessionId == OptMember(event, "session_id")
      && row.deviceId == OptMember(event, "device_id")
      && row.ipAddress == ip
      && row.userAgent == Fallback(OptMember(meta, "user_agent"), Str(""))
      && row.language == Fallback(OptMember(meta, "language"), Str(""))
      && row.platform == Fallback(OptMember(meta, "platform"), Str(""))
      && row.screenResolution == Fallback(OptMember(meta, "screen_resolution"), Str(""))
      && row.viewport == Fallback(OptMember(meta, "viewport"), Str(""))
      && row.timezone == Fallback(OptMember(meta, "timezone"), Str(""))
      && row.fingerprintConfidence == Fallback(OptMember(meta, "fingerprint_confidence"), Num(0.0))
      && row.userProperties == Fallback(OptMember(event, "user_properties"), Obj([]))
      && row.payload == Fallback(payload, Obj([]))
      && row.url == Fallback(OptMember(payload, "url"), Str(""))
      && row.referrer == Fallback(OptMember(payload, "referrer"), Str(""))
      && row.pageTitle == Fallback(OptMember(payload, "title"), Str(""))
      && row.sampleRate == Fallback(OptMember(event, "sample_rate"), Num(1.0))
  {
  }

  /** The value a field with a default receives: the source value when it is
      truthy, otherwise the default. */
  function Fallback(v: Value, default: Value): Value
  {
    if Truthy(v) then v else default
  }

  /** `sample_rate` is never falsy: an absent rate, and equally an explicit
      `0`, is stored as `1`; any other number is kept. */
  lemma SampleRate(event: Value, ip: Value, rate: real)
    requires event.Obj? && Lookup(event.fields, "sample_rate") == Some(Num(rate))
    ensures ToRow(event, ip).value.sampleRate == if rate == 0.0 then Num(1.0) else Num(rate)
  {
  }

  /** The client address: `req.ip` when truthy, else the socket address
      when truthy, else `''`. */
  lemma IpFallback(req: Request)
    ensures Truthy(req.ip) ==> IpAddress(req) == req.ip
    ensures !Truthy(req.ip) && Truthy(req.remoteAddress) ==> IpAddress(req) == req.remoteAddress
    ensures !Truthy(req.ip) && !Truthy(req.remoteAddress) ==> IpAddress(req) == Str("")
  {
  }

  /** A batch with a `null` element is rejected as a whole: nothing is
      inserted and the answer is 500. */
  lemma NullElementRejectsBatch(req: Request, insert: seq<Row> -> bool, i: int)
    requires req.body.Obj? && OptMember(req.body, "batch").Arr?
    requires 0 <= i < |OptMember(req.body, "batch").items|
    requires OptMember(req.body, "batch").items[i] == Null
    ensures RowsOf(req).None?
    ensures Handle(req, insert) == Failure
  {
  }
}

=== FILE: json.dfy ===
/** JavaScript values as they travel through the tracker and the ingestion
    server, and the two operators the code applies to them: property access
    (`.` and `?.`) and the falsy fallback `a || b`. Numbers are exact
    rationals; NaN is not modelled. */
module Json {
  import opened Common
  import opened Records

  datatype Value =
    | Undefined
    | Null
    | Bool(b: bool)
    | Num(n: real)
    | Str(s: string)
    | Arr(items: seq<Value>)
    | Obj(fields: Record<Value>)

  /** JavaScript truthiness: `undefined`, `null`, `false`, `0` and `''` are falsy. */
  predicate Truthy(v: Value)
  {
    match v
    case Undefined => false
    case Null => false
    case Bool(b) => b
    case Num(n) => n != 0.0
    case Str(s) => s != ""
    case Arr(_) => true
    case Obj(_) => true
  }

  /** `a || b`. */
  function Or(a: Value, b: Value): (r: Value)
    ensures Truthy(a) ==> r == a
    ensures !Truthy(a) ==> r == b
  {
    if Truthy(a) then a else b
  }

  /** `v?.k`: `undefined` for a nullish `v` or a missing property. Only the own
      properties of plain objects are visible. */
  function OptMember(v: Value, k: string): (r: Value)
    ensures v.Obj? && Lookup(v.fields, k).Some? ==> r == Lookup(v.fields, k).value
    ensures !(v.Obj? && Lookup(v.fields, k).Some?) ==> r == Undefined
  {
    match v
    case Obj(fields) => Lookup(fields, k).GetOr(Undefined)
    case _ => Undefined
  }

  /** `v.k`: like `v?.k`, except that reading a property of `null` or
      `undefined` throws a TypeError, shown as `None`. */
  function Member(v: Value, k: string): (r: Option<Value>)
    ensures r.None? <==> v == Null || v == Undefined
    ensures r.Some? ==> r.value == OptMember(v, k)
  {
    if v == Null || v == Undefined then None else Some(OptMember(v, k))
  }
}

=== FILE: migrate.dfy ===
/** The schema migration script: create the database, then run the schema
    file statement by statement, stopping at the first failure. The
    database is an oracle `query` saying whether a query succeeds. */
module Migrate {
  import opened Strings

  /** What one piece contributes: its trimmed form, unless that is empty. */
  function Piece(s: string): (r: seq<string>)
    ensures |r| <= 1
  {
    var t := Trim(s);
    if t == "" then [] else [t]
  }

  /** Each piece trimmed, with the pieces that trim to nothing dropped. */
  function TrimNonEmpty(parts: seq<string>): (r: seq<string>)
    ensures |r| <= |parts|
    decreases |parts|
  {
    if parts == [] then [] else Piece(parts[0]) + TrimNonEmpty(parts[1..])
  }

  /** Every kept piece is non-empty and trimmed, and a character absent from
      all input pieces is absent from all kept ones. */
  lemma {:induction false} TrimNonEmptyFrom(parts: seq<string>, c: char)
    requires forall i :: 0 <= i < |parts| ==> c !in parts[i]
    ensures forall i :: 0 <= i < |TrimNonEmpty(parts)| ==>
      var r := TrimNonEmpty(parts)[i]; r != "" && Trimmed(r) && c !in r
    decreases |parts|
  {
    if parts != [] {
      PieceClean(parts[0], c);
      TrimNonEmptyFrom(parts[1..], c);
      var head, rest := Piece(parts[0]), TrimNonEmpty(parts[1..]);
      assert TrimNonEmpty(parts) == head + rest;
      forall i | 0 <= i < |head + rest|
        ensures var r := (head + rest)[i]; r != "" && Trimmed(r) && c !in r
      {
        if i >= |head| {
          assert (head + rest)[i] == rest[i - |head|];
        }
      }
    }
  }

  lemma PieceClean(s: string, c: char)
    requires c !in s
    ensures forall i :: 0 <= i < |Piece(s)| ==> Piece(s)[i] != "" && Trimmed(Piece(s)[i]) && c !in Piece(s)[i]
  {
    TrimSpec(s);
    TrimKeepsOut(s, c);
  }

  lemma {:induction false} TrimNonEmptyAppend(a: seq<string>, b: seq<string>)
    ensures TrimNonEmpty(a + b) == TrimNonEmpty(a) + TrimNonEmpty(b)
    decreases |a|
  {
    if a != [] {
      var ab := a + b;
      assert ab[0] == a[0] && ab[1..] == a[1..] + b;
      TrimNonEmptyAppend(a[1..], b);
      assert TrimNonEmpty(ab) == Piece(a[0]) + TrimNonEmpty(a[1..] + b);
    } else {
      assert a + b == b;
    }
  }

  /** Pieces that are already trimmed and non-empty pass unchanged. */
  lemma {:induction false} TrimNonEmptyClean(parts: seq<string>)
    requires forall i :: 0 <= i < |parts| ==> parts[i] != "" && Trimmed(parts[i])
    ensures TrimNonEmpty(parts) == parts
    decreases |parts|
  {
    if parts != [] {
      var rest := parts[1..];
      forall i | 0 <= i < |rest|
        ensures rest[i] != "" && Trimmed(rest[i])
      {
        assert rest[i] == parts[i + 1];
      }
      TrimNonEmptyClean(rest);
      var p := parts[0];
      assert [p] + rest == parts;
      TrimNonEmptyCons(p, rest);
    }
  }

  lemma TrimNonEmptyCons(p: string, rest: seq<string>)
    requires p != "" && Trimmed(p)
    ensures TrimNonEmpty([p] + rest) == [p] + TrimNonEmpty(rest)
  {
    TrimmedFixed(p);
    var parts := [p] + rest;
    assert parts[0] == p && parts[1..] == rest;
  }

  /** The schema's statements: the text split on `;`, each piece trimmed,
      empty pieces dropped. */
  function Statements(schema: string): (stmts: seq<string>)
    ensures |stmts| <= Count(schema, ';') + 1
    ensures forall i :: 0 <= i < |stmts| ==> stmts[i] != "" && ';' !in stmts[i] && Trimmed(stmts[i])
  {
    TrimNonEmptyFrom(Split(schema, ';'), ';');
    TrimNonEmpty(Split(schema, ';'))
  }

  /** Clean statements: each non-empty, trimmed and free of `;`. */
  predicate Clean(stmts: seq<string>)
  {
    forall i :: 0 <= i < |stmts| ==> stmts[i] != "" && ';' !in stmts[i] && Trimmed(stmts[i])
  }

  /** Joining clean statements with `;` and splitting the text again gives
      them back. */
  lemma StatementsJoin(stmts: seq<string>)
    requires Clean(stmts)
    ensures Statements(Join(stmts, ";")) == stmts
  {
    if stmts != [] {
      JoinSplitRoundTrip(stmts, ';');
    }
    TrimNonEmptyClean(stmts);
  }

  /** The usual schema layout, each statement terminated by `;`, gives the
      statements back too: the empty tail after the last `;` is dropped. */
  lemma StatementsTerminated(stmts: seq<string>)
    requires Clean(stmts) && stmts != []
    ensures Statements(Join(stmts, ";") + ";") == stmts
  {
    var text := Join(stmts, ";") + ";";
    SplitTerminated(stmts);
    DropEmptyTail(stmts);
    assert Statements(text) == TrimNonEmpty(Split(text, ';'));
  }

  /** Schema text made of `;`-free pieces in any layout (white space and
      line breaks around each statement, empty pieces between `;;`) gives
      each piece trimmed, in order, with the pieces that trim to nothing
      dropped. */
  lemma StatementsOfPieces(pieces: seq<string>)
    requires pieces != []
    requires forall i :: 0 <= i < |pieces| ==> ';' !in pieces[i]
    ensures Statements(Join(pieces, ";")) == TrimNonEmpty(pieces)
  {
    JoinSplitRoundTrip(pieces, ';');
  }

  /** The same with a `;` after the last piece: the empty tail adds nothing. */
  lemma StatementsOfTerminatedPieces(pieces: seq<string>)
    requires pieces != []
    requires forall i :: 0 <= i < |pieces| ==> ';' !in pieces[i]
    ensures Statements(Join(pieces, ";") + ";") == TrimNonEmpty(pieces)
  {
    SplitTerminated(pieces);
    TrimNonEmptyAppend(pieces, [""]);
    EmptyPieceDropped();
    assert TrimNonEmpty(pieces) + [] == TrimNonEmpty(pieces);
  }

  /** A trailing empty piece is dropped; clean pieces are kept as they are. */
  lemma DropEmptyTail(stmts: seq<string>)
    requires Clean(stmts)
    ensures TrimNonEmpty(stmts + [""]) == stmts
  {
    TrimNonEmptyAppend(stmts, [""]);
    EmptyPieceDropped();
    TrimNonEmptyClean(stmts);
  }

  lemma EmptyPieceDropped()
    ensures TrimNonEmpty([""]) == []
  {
    TrimmedFixed("");
    assert Piece("") == [];
    assert [""][1..] == [];
  }

  lemma SplitTerminated(stmts: seq<string>)
    requires stmts != []
    requires forall i :: 0 <= i < |stmts| ==> ';' !in stmts[i]
    ensures Split(Join(stmts, ";") + ";", ';') == stmts + [""]
  {
    var parts := stmts + [""];
    JoinSnoc(stmts, ";");
    assert forall i :: 0 <= i < |parts| ==> ';' !in parts[i] by {
      forall i | 0 <= i < |parts|
        ensures ';' !in parts[i]
      {
        if i < |stmts| {
          assert parts[i] == stmts[i];
        }
      }
    }
    JoinSplitRoundTrip(parts, ';');
  }

  /** The first query, run on a connection without a database. */
  function CreateDatabase(database: string): string
  {
    "CREATE DATABASE IF NOT EXISTS " + database
  }

  /** Every query the migration issues when nothing fails, in order. */
  function Queries(database: string, schema: string): seq<string>
  {
    [CreateDatabase(database)] + Statements(schema)
  }

  /** The log label: the statement cut to its first 50 characters, always
      followed by an ellipsis. */
  function Label(statement: string): (shown: string)
    ensures |shown| == (if |statement| < 50 then |statement| else 50) + 3
    ensures StartsWith(statement, shown[..|shown| - 3])
    ensures shown[|shown| - 3..] == "..."
  {
    var head := Take(statement, 50);
    assert (head + "...")[..|head|] == head;
    head + "..."
  }

  /** A short statement is logged whole. */
  lemma LabelShort(statement: string)
    requires |statement| <= 50
    ensures Label(statement) == statement + "..."
  {
  }

  const CompletedLine: string := "Migration completed successfully"
  const FailedLine: string := "Migration failed:"

  function CreatingLine(database: string): string
  {
    "Creating database " + database + "..."
  }

  function ExecutedLine(statement: string): string
  {
    "Executed: " + Label(statement)
  }

  /** `migrate()`. Returns the queries issued, the log lines and whether the
      script succeeded (`false` stands for `process.exit(1)`). */
  method Run(database: string, schema: string, query: string -> bool)
    returns (issued: seq<string>, log: seq<string>, ok: bool)
    ensures 1 <= |issued| <= |Queries(database, schema)|
    ensures issued == Queries(database, schema)[..|issued|]
    ensures forall j :: 0 <= j < |issued| - 1 ==> query(issued[j])
    ensures ok <==> forall j :: 0 <= j < |Queries(database, schema)| ==> query(Queries(database, schema)[j])
    ensures !ok ==> !query(issued[|issued| - 1])
    ensures ok ==> issued == Queries(database, schema)
    ensures |log| == if ok || |issued| == 1 then |issued| + 1 else |issued|
    ensures log[0] == CreatingLine(database)
    ensures forall j :: 1 <= j < |log| - 1 ==> log[j] == ExecutedLine(issued[j])
    ensures log[|log| - 1] == if ok then CompletedLine else FailedLine
  {
    var stmts := Statements(schema);
    issued, log, ok := RunQueries(database, stmts, query);
  }

  /** `migrate()` once the schema is split: the database query, then the
      statements. */
  method RunQueries(database: string, stmts: seq<string>, query: string -> bool)
    returns (issued: seq<string>, log: seq<string>, ok: bool)
    ensures var all := [CreateDatabase(database)] + stmts;
      && 1 <= |issued| <= |all|
      && issued == all[..|issued|]
      && (forall j :: 0 <= j < |issued| - 1 ==> query(issued[j]))
      && (ok <==> forall j :: 0 <= j < |all| ==> query(all[j]))
      && (!ok ==> !query(issued[|issued| - 1]))
      && (ok ==> issued == all)
    ensures |log| == if ok || |issued| == 1 then |issued| + 1 else |issued|
    ensures log[0] == CreatingLine(database)
    ensures forall j :: 1 <= j < |log| - 1 ==> log[j] == ExecutedLine(issued[j])
    ensures log[|log| - 1] == if ok then CompletedLine else FailedLine
  {
    var create := CreateDatabase(database);
    var all := [create] + stmts;
    if !query(create) {
      issued, log, ok := [create], [CreatingLine(database), FailedLine], false;
      assert all[0] == create;
      return;
    }
    var ran, lines, done := RunStatements(stmts, query);
    issued := [create] + ran;
    log := [CreatingLine(database)] + lines + [if done then CompletedLine else FailedLine];
    ok := done;
    forall j | 1 <= j < |log| - 1
      ensures log[j] == ExecutedLine(issued[j])
    {
      assert log[j] == lines[j - 1] && issued[j] == ran[j - 1];
    }
    forall j | 0 <= j < |issued| - 1
      ensures query(issued[j])
    {
      if j > 0 {
        assert issued[j] == ran[j - 1];
      }
    }
    assert issued == all[..|issued|] by {
      assert all[..|issued|] == [create] + stmts[..|ran|];
    }
    if ok {
      forall j | 0 <= j < |all|
        ensures query(all[j])
      {
        if j > 0 {
          assert all[j] == stmts[j - 1];
        }
      }
    } else {
      assert issued[|issued| - 1] == all[|ran|];
    }
  }

  /** The `for ... of` loop: runs the statements in order, logging each one
      that succeeds, and stops at the first that fails. */
  method RunStatements(stmts: seq<string>, query: string -> bool)
    returns (issued: seq<string>, lines: seq<string>, ok: bool)
    ensures |issued| <= |stmts| && issued == stmts[..|issued|]
    ensures ok ==> issued == stmts
    ensures ok <==> forall j :: 0 <= j < |stmts| ==> query(stmts[j])
    ensures forall j :: 0 <= j < |issued| - 1 ==> query(issued[j])
    ensures !ok ==> issued != [] && !query(issued[|issued| - 1])
    ensures |lines| == if ok then |issued| else |issued| - 1
    ensures forall j :: 0 <= j < |lines| ==> lines[j] == ExecutedLine(issued[j])
  {
    issued, lines := [], [];
    var i := 0;
    while i < |stmts|
      invariant 0 <= i <= |stmts|
      invariant issued == stmts[..i] && lines == seq(i, j requires 0 <= j < i => ExecutedLine(stmts[j]))
      invariant forall j :: 0 <= j < i ==> query(stmts[j])
    {
      PrefixStep(stmts, i);
      issued := issued + [stmts[i]];
      if !query(stmts[i]) {
        ok := false;
        return;
      }
      lines := lines + [ExecutedLine(stmts[i])];
      i := i + 1;
    }
    assert issued == stmts;
    ok := true;
  }

  lemma PrefixStep<T>(s: seq<T>, n: nat)
    requires n < |s|
    ensures s[..n] + [s[n]] == s[..n + 1]
  {
  }
}

=== FILE: privacy.dfy ===
/** The privacy-tier filter of the fingerprinter (`filterComponentsByPrivacy`):
    which named components may enter the fingerprint, and in what order. */
module Privacy {
  import opened Common
  import opened Records
  import opened Json

  datatype Mode = Strict | Balanced | Full

  /** The tier the filter's `switch` selects. The constructor writes
      `{privacyMode: 'balanced', ...options}`, so an absent setting is
      `'balanced'`; an unrecognised one (or an explicit `undefined`, `None`
      here as well) falls to the `default:` branch, which is also balanced. */
  function ModeOf(setting: Option<string>): (m: Mode)
    ensures m == Strict <==> setting == Some("strict")
    ensures m == Full <==> setting == Some("full")
  {
    match setting
    case None => Balanced
    case Some(s) => if s == "strict" then Strict else if s == "full" then Full else Balanced
  }

  /** Components allowed in strict mode. */
  const StrictNames: seq<string> := ["language", "timezone", "screenResolution", "platform"]

  /** Components allowed in balanced mode: the strict ones and five more. */
  const BalancedNames: seq<string> :=
    StrictNames + ["colorDepth", "hardwareConcurrency", "deviceMemory", "userAgent", "audio"]

  /** The allow-list before exclusions. In full mode it is `Object.keys(components)`. */
  function AllowedNames(mode: Mode, components: Record<Value>): seq<string>
  {
    match mode
    case Strict => StrictNames
    case Balanced => BalancedNames
    case Full => Keys(components)
  }

  /** The component named `k` exists and its value is not `undefined`. */
  predicate Present(components: Record<Value>, k: string)
  {
    Lookup(components, k).Some? && Lookup(components, k).value != Undefined
  }

  /** The copy loop over the allow-list: each allowed name whose component
      is present is assigned into the result, in allow-list order. */
  function Select(components: Record<Value>, allowed: seq<string>): Record<Value>
    decreases |allowed|
  {
    if allowed == [] then []
    else
      var acc := Select(components, allowed[..|allowed| - 1]);
      var k := allowed[|allowed| - 1];
      if Present(components, k) then Put(acc, k, Lookup(components, k).value) else acc
  }

  /** The names of `allowed` that are present in `components`, in allow-list order. */
  function PresentNames(components: Record<Value>, allowed: seq<string>): (r: seq<string>)
    decreases |allowed|
  {
    if allowed == [] then []
    else
      var acc := PresentNames(components, allowed[..|allowed| - 1]);
      var k := allowed[|allowed| - 1];
      if Present(components, k) then acc + [k] else acc
  }

  /** A name is in the selection exactly when it is allowed and present, and
      then it carries the component's value unchanged. */
  lemma {:induction false} SelectLookup(components: Record<Value>, allowed: seq<string>, k: string)
    ensures Lookup(Select(components, allowed), k) ==
      if k in allowed && Present(components, k) then Lookup(components, k) else None
    decreases |allowed|
  {
    if allowed != [] {
      var prefix := allowed[..|allowed| - 1];
      SelectLookup(components, prefix, k);
      assert allowed == prefix + [allowed[|allowed| - 1]];
    }
  }

  /** The selection is a well-formed object with no more entries than the allow-list. */
  lemma {:induction false} SelectShape(components: Record<Value>, allowed: seq<string>)
    ensures UniqueKeys(Select(components, allowed))
    ensures |Select(components, allowed)| <= |allowed|
    decreases |allowed|
  {
    if allowed != [] {
      var prefix := allowed[..|allowed| - 1];
      var k := allowed[|allowed| - 1];
      SelectShape(components, prefix);
      if Present(components, k) {
        PutUnique(Select(components, prefix), k, Lookup(components, k).value);
      }
    }
  }

  /** With a duplicate-free allow-list, the selection's keys follow the
      allow-list order: this is what makes its serialisation reproducible. */
  lemma {:induction false} SelectOrder(components: Record<Value>, allowed: seq<string>)
    requires NoDup(allowed)
    ensures Keys(Select(components, allowed)) == PresentNames(components, allowed)
    decreases |allowed|
  {
    if allowed != [] {
      var prefix := allowed[..|allowed| - 1];
      var k := allowed[|allowed| - 1];
      SelectOrder(components, prefix);
      if Present(components, k) {
        assert k !in prefix;
        SelectLookup(components, prefix, k);
        LookupDefined(Select(components, prefix), k);
      }
    }
  }

  /** The selection reads the components only through lookups by name. */
  lemma {:induction false} SelectAgree(c1: Record<Value>, c2: Record<Value>, allowed: seq<string>)
    requires forall k :: Lookup(c1, k) == Lookup(c2, k)
    ensures Select(c1, allowed) == Select(c2, allowed)
    decreases |allowed|
  {
    if allowed != [] {
      SelectAgree(c1, c2, allowed[..|allowed| - 1]);
      var k := allowed[|allowed| - 1];
      assert Present(c1, k) == Present(c2, k);
    }
  }

  /** `filterComponentsByPrivacy`: the allowed, non-excluded, defined
      components, each with its value unchanged. */
  function FilterByPrivacy(components: Record<Value>, mode: Mode, excluded: seq<string>): (r: Record<Value>)
    ensures UniqueKeys(r)
    ensures |r| <= |AllowedNames(mode, components)|
    ensures forall k :: Lookup(r, k) == (
              if k in AllowedNames(mode, components) && k !in excluded && Present(components, k)
              then Lookup(components, k) else None)
  {
    var allowed := Without(AllowedNames(mode, components), excluded);
    SelectShape(components, allowed);
    forall k ensures Lookup(Select(components, allowed), k) ==
      if k in allowed && Present(components, k) then Lookup(components, k) else None
    {
      SelectLookup(components, allowed, k);
    }
    Select(components, allowed)
  }

  /** The filtered keys are exactly the allowed, non-excluded, defined names. */
  lemma FilterKeys(components: Record<Value>, mode: Mode, excluded: seq<string>)
    ensures forall k :: (k in Keys(FilterByPrivacy(components, mode, excluded))
      <==> k in AllowedNames(mode, components) && k !in excluded && Present(components, k))
  {
    var r := FilterByPrivacy(components, mode, excluded);
    forall k
      ensures k in Keys(r) <==> k in AllowedNames(mode, components) && k !in excluded && Present(components, k)
    {
      LookupDefined(r, k);
    }
  }

  /** Strict mode keeps only the four basic components: never canvas, webgl or audio. */
  lemma StrictContainment(components: Record<Value>, excluded: seq<string>)
    ensures forall k :: k in Keys(FilterByPrivacy(components, Strict, excluded)) ==> k in StrictNames
    ensures "canvas" !in Keys(FilterByPrivacy(components, Strict, excluded))
    ensures "webgl" !in Keys(FilterByPrivacy(components, Strict, excluded))
    ensures "audio" !in Keys(FilterByPrivacy(components, Strict, excluded))
  {
    var r := FilterByPrivacy(components, Strict, excluded);
    forall k | k in Keys(r)
      ensures k in StrictNames
    {
      LookupDefined(r, k);
    }
    LookupDefined(r, "canvas");
    LookupDefined(r, "webgl");
    LookupDefined(r, "audio");
  }

  /** Balanced mode keeps only the nine strict-or-balanced components. */
  lemma BalancedContainment(components: Record<Value>, excluded: seq<string>)
    ensures forall k :: k in Keys(FilterByPrivacy(components, Balanced, excluded)) ==> k in BalancedNames
  {
    var r := FilterByPrivacy(components, Balanced, excluded);
    forall k | k in Keys(r)
      ensures k in BalancedNames
    {
      LookupDefined(r, k);
    }
  }

  /** Whatever strict mode keeps, balanced mode keeps too, with the same value. */
  lemma StrictWithinBalanced(components: Record<Value>, excluded: seq<string>, k: string)
    requires Lookup(FilterByPrivacy(components, Strict, excluded), k).Some?
    ensures Lookup(FilterByPrivacy(components, Balanced, excluded), k)
         == Lookup(FilterByPrivacy(components, Strict, excluded), k)
  {
  }

  /** Full mode keeps every defined component that is not excluded. */
  lemma FullKeepsDefined(components: Record<Value>, excluded: seq<string>, k: string)
    ensures Lookup(FilterByPrivacy(components, Full, excluded), k).Some?
        <==> Present(components, k) && k !in excluded
  {
    LookupDefined(components, k);
  }

  /** In every mode an excluded name never appears. */
  lemma ExcludedNeverEmitted(components: Record<Value>, mode: Mode, excluded: seq<string>, k: string)
    requires k in excluded
    ensures k !in Keys(FilterByPrivacy(components, mode, excluded))
  {
    LookupDefined(FilterByPrivacy(components, mode, excluded), k);
  }

  /** The filtered keys appear in allow-list order (for full mode, the
      components' own order), excluded and undefined ones skipped. */
  lemma FilterOrder(components: Record<Value>, mode: Mode, excluded: seq<string>)
    requires UniqueKeys(components)
    ensures Keys(FilterByPrivacy(components, mode, excluded))
         == PresentNames(components, Without(AllowedNames(mode, components), excluded))
  {
    var allowed := Without(AllowedNames(mode, components), excluded);
    assert NoDup(AllowedNames(mode, components));
    SelectOrder(components, allowed);
  }

  /** Two component records with the same values (and, in full mode, the same
      key order) filter to the very same record, whatever order the values
      were collected in. */
  lemma FilterDeterministic(c1: Record<Value>, c2: Record<Value>, mode: Mode, excluded: seq<string>)
    requires forall k :: Lookup(c1, k) == Lookup(c2, k)
    requires mode == Full ==> Keys(c1) == Keys(c2)
    ensures FilterByPrivacy(c1, mode, excluded) == FilterByPrivacy(c2, mode, excluded)
  {
    SelectAgree(c1, c2, Without(AllowedNames(mode, c1), excluded));
  }
}

=== FILE: probes.dfy ===
/** The signal collectors of the fingerprinter and the candidate component
    record they produce (`getComponents`). Every browser read — navigator and
    screen properties, the canvas data URL, the WebGL strings, span sizes,
    the device list, plugin names — is an input here; what is modelled is the
    decision each collector makes on top of those reads. */
module Probes {
  import opened Common
  import opened Records
  import opened Json
  import Privacy
  import AudioProbe

  /** The 22 names `getAvailableComponents` lists: the confidence denominator. */
  const CollectibleNames: seq<string> := [
    "userAgent", "language", "colorDepth", "deviceMemory", "hardwareConcurrency",
    "screenResolution", "availableScreenResolution", "timezoneOffset", "timezone",
    "sessionStorage", "localStorage", "indexedDb", "addBehavior", "openDatabase",
    "cpuClass", "platform", "plugins", "canvas", "webgl", "fonts", "audio", "mediaDevices"]

  // ---------------------------------------------------------------- fonts

  /** Rendered size of the test span (`offsetWidth`, `offsetHeight`). */
  datatype Box = Box(width: int, height: int)

  /** Sizes of the test span for a given `font-family` value. */
  type Measure = string -> Box

  const BaseFonts: seq<string> := ["monospace", "sans-serif", "serif"]

  const FontList: seq<string> := [
    "Arial", "Arial Black", "Arial Narrow", "Calibri", "Cambria", "Cambria Math",
    "Comic Sans MS", "Courier", "Courier New", "Georgia", "Helvetica", "Impact",
    "Times", "Times New Roman", "Trebuchet MS", "Verdana"]

  /** The span rendered with `font, base` differs in width or height from the
      span rendered with `base` alone. */
  predicate Differs(measure: Measure, font: string, base: string)
  {
    measure(font + "," + base) != measure(base)
  }

  /** `detected_count`: how many baseline families show a difference. */
  function MismatchCount(measure: Measure, font: string, bases: seq<string>): (n: nat)
    ensures n <= |bases|
  {
    if bases == [] then 0
    else MismatchCount(measure, font, bases[..|bases| - 1])
         + (if Differs(measure, font, bases[|bases| - 1]) then 1 else 0)
  }

  /** The detection rule: at least 2 of the 3 baselines differ. */
  predicate Detected(measure: Measure, font: string)
  {
    MismatchCount(measure, font, BaseFonts) >= 2
  }

  /** Detection means two distinct baselines both show a difference. */
  lemma DetectedIffTwoBaselinesDiffer(measure: Measure, font: string)
    ensures Detected(measure, font) <==>
      exists i, j :: 0 <= i < j < |BaseFonts| && Differs(measure, font, BaseFonts[i]) && Differs(measure, font, BaseFonts[j])
  {
    var d0 := Differs(measure, font, BaseFonts[0]);
    var d1 := Differs(measure, font, BaseFonts[1]);
    var d2 := Differs(measure, font, BaseFonts[2]);
    assert BaseFonts[..2][..1] == BaseFonts[..1];
    assert BaseFonts[..1][..0] == [];
    assert BaseFonts[..|BaseFonts| - 1] == BaseFonts[..2];
    assert MismatchCount(measure, font, BaseFonts[..1]) == (if d0 then 1 else 0);
    assert MismatchCount(measure, font, BaseFonts[..2]) == (if d0 then 1 else 0) + (if d1 then 1 else 0);
    assert MismatchCount(measure, font, BaseFonts)
        == (if d0 then 1 else 0) + (if d1 then 1 else 0) + (if d2 then 1 else 0);
    if d0 && d1 {
      assert Differs(measure, font, BaseFonts[0]) && Differs(measure, font, BaseFonts[1]);
    } else if d0 && d2 {
      assert Differs(measure, font, BaseFonts[0]) && Differs(measure, font, BaseFonts[2]);
    } else if d1 && d2 {
      assert Differs(measure, font, BaseFonts[1]) && Differs(measure, font, BaseFonts[2]);
    }
  }

  /** Position of `x` in a sequence that contains it. */
  function IndexOf(s: seq<string>, x: string): (i: nat)
    requires x in s
    ensures i < |s| && s[i] == x
    ensures forall k :: 0 <= k < i ==> s[k] != x
  {
    if s[0] == x then 0 else 1 + IndexOf(s[1..], x)
  }

  /** In a duplicate-free sequence the position of an element is the index it sits at. */
  lemma IndexOfAt(s: seq<string>, k: int)
    requires NoDup(s)
    requires 0 <= k < |s|
    ensures IndexOf(s, s[k]) == k
  {
  }

  /** The fonts of `fonts` that pass the detection rule, scanned front to back. */
  function DetectedAmong(measure: Measure, fonts: seq<string>): seq<string>
    decreases |fonts|
  {
    if fonts == [] then []
    else
      var acc := DetectedAmong(measure, fonts[..|fonts| - 1]);
      var f := fonts[|fonts| - 1];
      if Detected(measure, f) then acc + [f] else acc
  }

  /** A font is reported exactly when it is a candidate that passes the rule,
      and the report keeps candidate order (hence has no repeats). */
  lemma {:induction false} DetectedAmongSpec(measure: Measure, fonts: seq<string>)
    requires NoDup(fonts)
    ensures forall f :: f in DetectedAmong(measure, fonts) <==> f in fonts && Detected(measure, f)
    ensures forall i, j :: 0 <= i < j < |DetectedAmong(measure, fonts)| ==>
              IndexOf(fonts, DetectedAmong(measure, fonts)[i]) < IndexOf(fonts, DetectedAmong(measure, fonts)[j])
    decreases |fonts|
  {
    if fonts != [] {
      var p := fonts[..|fonts| - 1];
      var f := fonts[|fonts| - 1];
      DetectedAmongSpec(measure, p);
      assert fonts == p + [f];
      DetectedAmongStep(measure, fonts, p, f, DetectedAmong(measure, p), DetectedAmong(measure, fonts));
    }
  }

  /** One step of `DetectedAmongSpec`: from the report on `p` to the report
      on `p + [f]`. */
  lemma DetectedAmongStep(measure: Measure, fonts: seq<string>, p: seq<string>, f: string,
                          acc: seq<string>, r: seq<string>)
    requires NoDup(fonts) && fonts == p + [f]
    requires r == if Detected(measure, f) then acc + [f] else acc
    requires forall x :: x in acc <==> x in p && Detected(measure, x)
    requires forall i, j :: 0 <= i < j < |acc| ==> IndexOf(p, acc[i]) < IndexOf(p, acc[j])
    ensures forall x :: x in r <==> x in fonts && Detected(measure, x)
    ensures forall i, j :: 0 <= i < j < |r| ==> IndexOf(fonts, r[i]) < IndexOf(fonts, r[j])
  {
    IndexOfSnoc(fonts, p, f);
    if Detected(measure, f) {
      OrderSnoc(fonts, p, f, acc, r);
    } else {
      OrderKeep(fonts, p, acc);
    }
  }

  /** Positions in `p + [f]`: those of `p` are unchanged and `f` comes last. */
  lemma IndexOfSnoc(fonts: seq<string>, p: seq<string>, f: string)
    requires NoDup(fonts) && fonts == p + [f]
    ensures NoDup(p)
    ensures forall x :: x in p ==> IndexOf(fonts, x) == IndexOf(p, x)
    ensures IndexOf(fonts, f) == |p|
  {
    assert forall k :: 0 <= k < |p| ==> p[k] == fonts[k];
    forall x | x in p
      ensures IndexOf(fonts, x) == IndexOf(p, x)
    {
      var k := IndexOf(p, x);
      IndexOfAt(p, k);
      IndexOfAt(fonts, k);
    }
    IndexOfAt(fonts, |p|);
  }

  /** A report in `p`'s order stays in order when read against `p + [f]`. */
  lemma OrderKeep(fonts: seq<string>, p: seq<string>, acc: seq<string>)
    requires forall x :: x in acc ==> x in p && x in fonts
    requires forall x :: x in p ==> x in fonts && IndexOf(fonts, x) == IndexOf(p, x)
    requires forall i, j :: 0 <= i < j < |acc| ==> IndexOf(p, acc[i]) < IndexOf(p, acc[j])
    ensures forall i, j :: 0 <= i < j < |acc| ==> IndexOf(fonts, acc[i]) < IndexOf(fonts, acc[j])
  {
  }

  /** Appending the last candidate to an ordered report keeps it ordered. */
  lemma OrderSnoc(fonts: seq<string>, p: seq<string>, f: string, acc: seq<string>, r: seq<string>)
    requires fonts == p + [f] && r == acc + [f]
    requires forall x :: x in acc ==> x in p
    requires forall x :: x in p ==> IndexOf(fonts, x) == IndexOf(p, x)
    requires IndexOf(fonts, f) == |p|
    requires forall i, j :: 0 <= i < j < |acc| ==> IndexOf(p, acc[i]) < IndexOf(p, acc[j])
    ensures forall i, j :: 0 <= i < j < |r| ==> IndexOf(fonts, r[i]) < IndexOf(fonts, r[j])
  {
    forall i, j | 0 <= i < j < |r|
      ensures IndexOf(fonts, r[i]) < IndexOf(fonts, r[j])
    {
      assert r[i] == acc[i] && r[i] in p;
      if j < |acc| {
        assert r[j] == acc[j];
      } else {
        assert r[j] == f;
      }
    }
  }

  /** `getFonts`: the loop over the 16 candidates and, for each, over the 3
      baselines, counting differences. Without a `body` element the first
      attempt to attach the test span throws, and no list is produced. */
  method DetectFonts(measure: Measure, hasBody: bool) returns (result: Option<seq<string>>)
    ensures result.None? <==> !hasBody
    ensures result.Some? ==> result.value == DetectedAmong(measure, FontList)
    ensures result.Some? ==> forall f :: f in result.value <==> f in FontList && Detected(measure, f)
    ensures result.Some? ==> forall i, j :: 0 <= i < j < |result.value| ==>
              IndexOf(FontList, result.value[i]) < IndexOf(FontList, result.value[j])
  {
    if !hasBody {
      return None;
    }
    var detected := [];
    var n := 0;
    while n < |FontList|
      invariant 0 <= n <= |FontList|
      invariant detected == DetectedAmong(measure, FontList[..n])
    {
      var font := FontList[n];
      var count := CountMismatches(measure, font);
      if count >= 2 {
        detected := detected + [font];
      }
      assert FontList[..n + 1][..n] == FontList[..n];
      n := n + 1;
    }
    assert FontList[..n] == FontList;
    FontListDistinct();
    DetectedAmongSpec(measure, FontList);
    result := Some(detected);
  }

  /** The inner loop of `getFonts`: one candidate against the 3 baselines. */
  method CountMismatches(measure: Measure, font: string) returns (count: nat)
    ensures count == MismatchCount(measure, font, BaseFonts)
    ensures count >= 2 <==> Detected(measure, font)
  {
    count := 0;
    var b := 0;
    while b < |BaseFonts|
      invariant 0 <= b <= |BaseFonts|
      invariant count == MismatchCount(measure, font, BaseFonts[..b])
    {
      assert BaseFonts[..b + 1][..b] == BaseFonts[..b];
      if measure(font + "," + BaseFonts[b]) != measure(BaseFonts[b]) {
        count := count + 1;
      }
      b := b + 1;
    }
    assert BaseFonts[..b] == BaseFonts;
  }

  lemma FontListDistinct()
    ensures NoDup(FontList)
  {
    var s := FontList;
    forall i, j | 0 <= i < j < |s|
      ensures s[i] != s[j]
    {
      assert |s[i]| != |s[j]| || s[i][|s[i]| - 1] != s[j][|s[j]| - 1] || s[i][0] != s[j][0];
    }
  }

  // ---------------------------------------------------------------- other probes

  /** Outcome of `canvas.getContext('2d')` and the drawing read back. */
  datatype CanvasRead = No2dContext | Drawn(dataUrl: string)

  /** Outcome of the WebGL context and `WEBGL_debug_renderer_info` reads. */
  datatype WebGLRead = NoWebGLContext | NoDebugExtension | Unmasked(vendor: Value, renderer: Value)

  /** Outcome of `navigator.mediaDevices.enumerateDevices`. */
  datatype MediaRead = NoEnumerate | EnumerateRejected | Devices(devices: seq<(string, string)>)

  /** `getCanvasFingerprint`: the data URL, or `''` without a 2-D context. */
  function CanvasComponent(read: CanvasRead): (v: Value)
    ensures read.No2dContext? ==> v == Str("")
    ensures read.Drawn? ==> v == Str(read.dataUrl)
  {
    match read
    case No2dContext => Str("")
    case Drawn(url) => Str(url)
  }

  /** `getWebGLFingerprint`: `{render: '', vendor: ''}` when the context or the
      debug extension is missing, otherwise `{vendor, render}` (note the
      different property order of the two shapes). */
  function WebGLComponent(read: WebGLRead): (v: Value)
    ensures v.Obj? && |v.fields| == 2
    ensures !read.Unmasked? ==> v.fields == [("render", Str("")), ("vendor", Str(""))]
    ensures read.Unmasked? ==> v.fields == [("vendor", read.vendor), ("render", read.renderer)]
    ensures read.Unmasked? ==>
              Lookup(v.fields, "vendor") == Some(read.vendor) && Lookup(v.fields, "render") == Some(read.renderer)
  {
    match read
    case Unmasked(vendor, renderer) => Obj([("vendor", vendor), ("render", renderer)])
    case _ => Obj([("render", Str("")), ("vendor", Str(""))])
  }

  /** `getMediaDevices`: `kind:label` per device; `[]` when enumeration is
      unsupported or rejected. */
  function MediaComponent(read: MediaRead): (v: Value)
    ensures v.Arr?
    ensures !read.Devices? ==> v.items == []
    ensures read.Devices? ==> |v.items| == |read.devices|
    ensures read.Devices? ==>
              forall i :: 0 <= i < |read.devices| ==> v.items[i] == Str(read.devices[i].0 + ":" + read.devices[i].1)
  {
    match read
    case Devices(ds) => Arr(seq(|ds|, i requires 0 <= i < |ds| => Str(ds[i].0 + ":" + ds[i].1)))
    case _ => Arr([])
  }

  /** `getPlugins`: `[]` in strict mode, the plugin names otherwise. */
  function PluginsComponent(mode: Privacy.Mode, names: seq<string>): (v: Value)
    ensures v.Arr?
    ensures mode == Privacy.Strict ==> v.items == []
    ensures mode != Privacy.Strict ==> |v.items| == |names|
    ensures mode != Privacy.Strict ==> forall i :: 0 <= i < |names| ==> v.items[i] == Str(names[i])
  {
    if mode == Privacy.Strict then Arr([])
    else Arr(seq(|names|, i requires 0 <= i < |names| => Str(names[i])))
  }

  /** The reads one fingerprint computation takes from the browser. Plain
      properties are taken as the values the browser reports (possibly
      `undefined`); the template strings `${w}x${h}` are taken as built. */
  datatype BrowserReads = BrowserReads(
    userAgent: Value, language: Value, colorDepth: Value, deviceMemory: Value,
    hardwareConcurrency: Value, screenResolution: Value, availableScreenResolution: Value,
    timezoneOffset: Value, timezone: Value,
    hasSessionStorage: bool, hasLocalStorage: bool, hasIndexedDb: bool,
    hasAddBehavior: bool, hasOpenDatabase: bool,
    cpuClass: Value, platform: Value,
    pluginNames: seq<string>, canvas: CanvasRead, webgl: WebGLRead,
    measure: Measure, audio: AudioProbe.Env, audioSchedule: seq<AudioProbe.Callback>,
    media: MediaRead)

  /** The collectors' results, in the order of `CollectibleNames`. */
  function ComponentValues(browser: BrowserReads, mode: Privacy.Mode): (vs: seq<Value>)
    ensures |vs| == |CollectibleNames|
  {
    var fonts := DetectedAmong(browser.measure, FontList);
    [ browser.userAgent, browser.language, browser.colorDepth, browser.deviceMemory,
      browser.hardwareConcurrency, browser.screenResolution, browser.availableScreenResolution,
      browser.timezoneOffset, browser.timezone,
      Bool(browser.hasSessionStorage), Bool(browser.hasLocalStorage), Bool(browser.hasIndexedDb),
      Bool(browser.hasAddBehavior), Bool(browser.hasOpenDatabase),
      browser.cpuClass, browser.platform,
      PluginsComponent(mode, browser.pluginNames),
      CanvasComponent(browser.canvas),
      WebGLComponent(browser.webgl),
      Arr(seq(|fonts|, i requires 0 <= i < |fonts| => Str(fonts[i]))),
      Str(AudioProbe.Fingerprint(browser.audio, browser.audioSchedule).result),
      MediaComponent(browser.media) ]
  }

  /** `getComponents`: the component names in collection order, mapped to
      the collectors' results. */
  function Components(browser: BrowserReads, mode: Privacy.Mode): (c: Record<Value>)
  {
    var vs := ComponentValues(browser, mode);
    seq(|CollectibleNames|, i requires 0 <= i < |CollectibleNames| => (CollectibleNames[i], vs[i]))
  }

  /** The collected record holds exactly the 22 collectible names, in the
      order `getAvailableComponents` lists them, each once. */
  lemma ComponentsShape(browser: BrowserReads, mode: Privacy.Mode)
    ensures Keys(Components(browser, mode)) == CollectibleNames
    ensures UniqueKeys(Components(browser, mode))
  {
    var c := Components(browser, mode);
    var ks := Keys(c);
    assert |ks| == |CollectibleNames|;
    forall i | 0 <= i < |ks|
      ensures ks[i] == CollectibleNames[i]
    {
      assert c[i].0 == CollectibleNames[i];
    }
    assert ks == CollectibleNames;
    NamesDistinct();
  }

  lemma NamesDistinct()
    ensures NoDup(CollectibleNames)
  {
    var s := CollectibleNames;
    forall i, j | 0 <= i < j < |s|
      ensures s[i] != s[j]
    {
      assert |s[i]| != |s[j]| || s[i][0] != s[j][0];
    }
  }

  /** The value stored under the `i`-th collectible name. */
  lemma ComponentAt(browser: BrowserReads, mode: Privacy.Mode, i: int)
    requires 0 <= i < |CollectibleNames|
    ensures Lookup(Components(browser, mode), CollectibleNames[i]) == Some(ComponentValues(browser, mode)[i])
  {
    ComponentsShape(browser, mode);
    LookupAt(Components(browser, mode), i);
  }

  /** Each collector's result sits under its own name; a collector that
      catches its own failure contributes its fallback value. */
  lemma ComponentsSpec(browser: BrowserReads, mode: Privacy.Mode)
    ensures Lookup(Components(browser, mode), "canvas") == Some(CanvasComponent(browser.canvas))
    ensures Lookup(Components(browser, mode), "webgl") == Some(WebGLComponent(browser.webgl))
    ensures Lookup(Components(browser, mode), "audio")
         == Some(Str(AudioProbe.Fingerprint(browser.audio, browser.audioSchedule).result))
    ensures Lookup(Components(browser, mode), "mediaDevices") == Some(MediaComponent(browser.media))
    ensures Lookup(Components(browser, mode), "plugins") == Some(PluginsComponent(mode, browser.pluginNames))
  {
    var vs := ComponentValues(browser, mode);
    ComponentAt(browser, mode, 16);
    ComponentAt(browser, mode, 17);
    ComponentAt(browser, mode, 18);
    ComponentAt(browser, mode, 20);
    ComponentAt(browser, mode, 21);
  }
}

=== FILE: records.dfy ===
/** A JavaScript plain object seen as its list of own properties in
    insertion order. Property order matters here: `JSON.stringify` and
    `Object.keys` follow it. */
module Records {
  import opened Common

  type Record<V> = seq<(string, V)>

  /** `Object.keys(r)`. */
  function Keys<V>(r: Record<V>): (ks: seq<string>)
    ensures |ks| == |r|
    ensures forall i :: 0 <= i < |r| ==> ks[i] == r[i].0
  {
    if r == [] then [] else [r[0].0] + Keys(r[1..])
  }

  /** A well-formed object: no property name occurs twice. */
  predicate UniqueKeys<V>(r: Record<V>)
  {
    NoDup(Keys(r))
  }

  /** `r[k]`, with `None` for a missing property. */
  function Lookup<V>(r: Record<V>, k: string): Option<V>
  {
    if r == [] then None
    else if r[0].0 == k then Some(r[0].1)
    else Lookup(r[1..], k)
  }

  /** A lookup finds something exactly when the name is one of the keys. */
  lemma {:induction false} LookupDefined<V>(r: Record<V>, k: string)
    ensures Lookup(r, k).Some? <==> k in Keys(r)
  {
    if r != [] {
      assert Keys(r) == [r[0].0] + Keys(r[1..]);
      LookupDefined(r[1..], k);
    }
  }

  /** In a well-formed object the entry at position `i` is what a lookup of its name finds. */
  lemma {:induction false} LookupAt<V>(r: Record<V>, i: int)
    requires UniqueKeys(r)
    requires 0 <= i < |r|
    ensures Lookup(r, r[i].0) == Some(r[i].1)
  {
    if i > 0 {
      assert Keys(r)[0] != Keys(r)[i];
      assert Keys(r[1..]) == Keys(r)[1..];
      LookupAt(r[1..], i - 1);
    }
  }

  /** The assignment `r[k] = v`: an existing property keeps its position and
      takes the new value; a new one is appended. */
  function Put<V>(r: Record<V>, k: string, v: V): (r': Record<V>)
    ensures Lookup(r', k) == Some(v)
    ensures forall k' :: k' != k ==> Lookup(r', k') == Lookup(r, k')
    ensures Keys(r') == if k in Keys(r) then Keys(r) else Keys(r) + [k]
  {
    if r == [] then [(k, v)]
    else if r[0].0 == k then
      PutHere(r, k, v);
      [(k, v)] + r[1..]
    else
      var rest := Put(r[1..], k, v);
      PutFurther(r, k, v, rest);
      [r[0]] + rest
  }

  /** `Put` on an object whose first property is the one assigned. */
  lemma PutHere<V>(r: Record<V>, k: string, v: V)
    requires r != [] && r[0].0 == k
    ensures var r' := [(k, v)] + r[1..];
      && Lookup(r', k) == Some(v)
      && (forall k' :: k' != k ==> Lookup(r', k') == Lookup(r, k'))
      && Keys(r') == Keys(r) && k in Keys(r)
  {
    var r' := [(k, v)] + r[1..];
    assert r'[1..] == r[1..];
    assert Keys(r)[0] == k;
  }

  /** `Put` past a first property that is not the one assigned, given what
      the recursive call on the remaining properties produced. */
  lemma PutFurther<V>(r: Record<V>, k: string, v: V, rest: Record<V>)
    requires r != [] && r[0].0 != k
    requires Lookup(rest, k) == Some(v)
    requires forall k' :: k' != k ==> Lookup(rest, k') == Lookup(r[1..], k')
    requires Keys(rest) == if k in Keys(r[1..]) then Keys(r[1..]) else Keys(r[1..]) + [k]
    ensures var r' := [r[0]] + rest;
      && Lookup(r', k) == Some(v)
      && (forall k' :: k' != k ==> Lookup(r', k') == Lookup(r, k'))
      && Keys(r') == if k in Keys(r) then Keys(r) else Keys(r) + [k]
  {
    var r' := [r[0]] + rest;
    assert r'[1..] == rest;
    assert Keys(r') == [r[0].0] + Keys(rest);
    assert Keys(r) == [r[0].0] + Keys(r[1..]);
    assert k in Keys(r) <==> k in Keys(r[1..]);
  }

  /** Assigning a property the object does not have appends it. */
  lemma {:induction false} PutAbsent<V>(r: Record<V>, k: string, v: V)
    requires k !in Keys(r)
    ensures Put(r, k, v) == r + [(k, v)]
  {
    if r != [] {
      assert Keys(r)[0] == r[0].0;
      assert k !in Keys(r[1..]) by {
        assert Keys(r[1..]) == Keys(r)[1..];
      }
      PutAbsent(r[1..], k, v);
      assert Put(r, k, v) == [r[0]] + Put(r[1..], k, v);
      assert [r[0]] + (r[1..] + [(k, v)]) == r + [(k, v)];
    }
  }

  /** Assigning a property keeps an object well formed. */
  lemma PutUnique<V>(r: Record<V>, k: string, v: V)
    requires UniqueKeys(r)
    ensures UniqueKeys(Put(r, k, v))
  {
    var ks := Keys(r);
    if k !in ks {
      assert forall i :: 0 <= i < |ks| ==> (ks + [k])[i] == ks[i];
    }
  }

  /** The object spread `{...a, ...b}` seen from `a`'s copy: each property of
      `b` is assigned in turn. */
  function Spread<V>(a: Record<V>, b: Record<V>): Record<V>
    decreases |b|
  {
    if b == [] then a else Spread(Put(a, b[0].0, b[0].1), b[1..])
  }

  /** After `{...a, ...b}` every property of `b` has `b`'s value, every other
      property of `a` keeps `a`'s value, and nothing else is present. */
  lemma {:induction false} SpreadLookup<V>(a: Record<V>, b: Record<V>, k: string)
    requires UniqueKeys(b)
    ensures Lookup(Spread(a, b), k) == if k in Keys(b) then Lookup(b, k) else Lookup(a, k)
    decreases |b|
  {
    if b != [] {
      assert Keys(b) == [b[0].0] + Keys(b[1..]);
      SpreadLookup(Put(a, b[0].0, b[0].1), b[1..], k);
    }
  }

  /** Spreading keeps objects well formed. */
  lemma {:induction false} SpreadUnique<V>(a: Record<V>, b: Record<V>)
    requires UniqueKeys(a)
    ensures UniqueKeys(Spread(a, b))
    decreases |b|
  {
    if b != [] {
      PutUnique(a, b[0].0, b[0].1);
      SpreadUnique(Put(a, b[0].0, b[0].1), b[1..]);
    }
  }

  /** A shallow copy `{...b}` of a well-formed object is the object itself. */
  lemma {:induction false} CopyIsIdentity<V>(b: Record<V>)
    requires UniqueKeys(b)
    ensures Spread([], b) == b
  {
    CopyPrefix(b, 0);
    assert b[..0] == [] && b[0..] == b;
  }

  lemma {:induction false} CopyPrefix<V>(b: Record<V>, n: nat)
    requires UniqueKeys(b)
    requires n <= |b|
    ensures Spread(b[..n], b[n..]) == b
    decreases |b| - n
  {
    if n < |b| {
      CopyStep(b, n);
      CopyPrefix(b, n + 1);
    } else {
      assert b[..n] == b;
    }
  }

  /** One step of the copy: the next property moves from the source to the
      end of the target. */
  lemma CopyStep<V>(b: Record<V>, n: nat)
    requires UniqueKeys(b) && n < |b|
    ensures Spread(b[..n], b[n..]) == Spread(b[..n + 1], b[n + 1..])
  {
    KeyNotBefore(b, n);
    assert [b[n]] + b[n + 1..] == b[n..];
    assert b[..n] + [b[n]] == b[..n + 1];
    SpreadStep(b[..n], b[n], b[n + 1..], b[n..], b[..n + 1]);
  }

  /** Spreading a property the target lacks appends it. */
  lemma SpreadStep<V>(p: Record<V>, e: (string, V), tail: Record<V>, whole: Record<V>, after: Record<V>)
    requires e.0 !in Keys(p)
    requires whole == [e] + tail && after == p + [e]
    ensures Spread(p, whole) == Spread(after, tail)
  {
    PutAbsent(p, e.0, e.1);
    assert whole[0] == e && whole[1..] == tail;
  }

  /** In a well-formed object no property name occurs before its own entry. */
  lemma KeyNotBefore<V>(b: Record<V>, n: nat)
    requires UniqueKeys(b) && n < |b|
    ensures b[n].0 !in Keys(b[..n])
  {
    assert Keys(b[..n]) == Keys(b)[..n];
    assert Keys(b)[n] == b[n].0;
  }
}

=== FILE: strings.dfy ===
/** The JavaScript string operations the analysed code relies on: `split`
    on a one-character separator, `join`, `trim`, `includes`, `toLowerCase`
    and `slice`. A string is a sequence of Unicode scalar values (`char`);
    JavaScript counts UTF-16 code units instead, and the two agree on text
    with no character outside the Basic Multilingual Plane. */
module Strings {

  /** Number of occurrences of `c` in `s`. */
  function Count(s: string, c: char): nat
  {
    if s == [] then 0 else (if s[0] == c then 1 else 0) + Count(s[1..], c)
  }

  /** `s.split(c)`: the maximal `c`-free runs of `s`, including empty ones at
      either end and between adjacent separators; `"".split(c)` is `[""]`. */
  function Split(s: string, c: char): (parts: seq<string>)
    ensures |parts| == Count(s, c) + 1
    ensures forall i :: 0 <= i < |parts| ==> c !in parts[i]
  {
    if s == [] then [""]
    else
      var rest := Split(s[1..], c);
      if s[0] == c then [""] + rest
      else [[s[0]] + rest[0]] + rest[1..]
  }

  /** `parts.join(sep)`: the first part, then `sep` before each later one. */
  function Join(parts: seq<string>, sep: string): string
  {
    if parts == [] then "" else parts[0] + Separated(parts[1..], sep)
  }

  /** Each part preceded by `sep`. */
  function Separated(parts: seq<string>, sep: string): string
  {
    if parts == [] then "" else sep + parts[0] + Separated(parts[1..], sep)
  }

  /** Every occurrence of `c` in `s` replaced by `d`: the reference meaning of
      `s.split(c).join(d)`. */
  function Replace(s: string, c: char, d: char): (r: string)
    ensures |r| == |s|
    ensures forall i :: 0 <= i < |s| ==> r[i] == (if s[i] == c then d else s[i])
  {
    if s == [] then [] else [if s[0] == c then d else s[0]] + Replace(s[1..], c, d)
  }

  /** Splitting on `c` and joining with `d` replaces each `c` by `d`. */
  lemma {:induction false} SplitJoinReplaces(s: string, c: char, d: char)
    ensures Join(Split(s, c), [d]) == Replace(s, c, d)
  {
    if s != [] {
      var rest := Split(s[1..], c);
      SplitJoinReplaces(s[1..], c, d);
      if s[0] == c {
        JoinEmptyHead(rest, d, [""] + rest);
      } else {
        JoinGrowHead(s[0], rest, d, [[s[0]] + rest[0]] + rest[1..]);
      }
    }
  }

  /** A separator first: joining `[""] + rest` puts `d` before the join of `rest`. */
  lemma JoinEmptyHead(rest: seq<string>, d: char, parts: seq<string>)
    requires |rest| >= 1 && parts == [""] + rest
    ensures Join(parts, [d]) == [d] + Join(rest, [d])
  {
    assert parts[0] == "" && parts[1..] == rest;
    assert Separated(rest, [d]) == [d] + rest[0] + Separated(rest[1..], [d]);
  }

  /** A non-separator first: it is prepended to the first piece. */
  lemma JoinGrowHead(x: char, rest: seq<string>, d: char, parts: seq<string>)
    requires |rest| >= 1 && parts == [[x] + rest[0]] + rest[1..]
    ensures Join(parts, [d]) == [x] + Join(rest, [d])
  {
    assert parts[0] == [x] + rest[0] && parts[1..] == rest[1..];
  }

  /** Replacing a character by itself changes nothing. */
  lemma ReplaceSelf(s: string, c: char)
    ensures Replace(s, c, c) == s
  {
  }

  /** `split` then `join` with the same separator gives the input back. */
  lemma SplitJoinRoundTrip(s: string, c: char)
    ensures Join(Split(s, c), [c]) == s
  {
    SplitJoinReplaces(s, c, c);
    ReplaceSelf(s, c);
  }

  /** Joining `c`-free pieces with `c` and splitting on `c` gives the pieces back. */
  lemma {:induction false} JoinSplitRoundTrip(parts: seq<string>, c: char)
    requires |parts| >= 1
    requires forall i :: 0 <= i < |parts| ==> c !in parts[i]
    ensures Split(Join(parts, [c]), c) == parts
  {
    if |parts| == 1 {
      assert Join(parts, [c]) == parts[0];
      SplitFree(parts[0], c);
    } else {
      JoinSplitRoundTrip(parts[1..], c);
      JoinCons(parts, [c]);
      SplitPrefix(parts[0], c, Join(parts[1..], [c]));
      assert parts == [parts[0]] + parts[1..];
    }
  }

  /** With two or more parts, the join is the first part, `sep`, and the
      join of the rest. */
  lemma JoinCons(parts: seq<string>, sep: string)
    requires |parts| >= 2
    ensures Join(parts, sep) == parts[0] + sep + Join(parts[1..], sep)
  {
    var tail := parts[1..];
    assert tail[0] == parts[1] && tail[1..] == parts[2..];
    var z := Separated(parts[2..], sep);
    assert Separated(tail, sep) == sep + parts[1] + z;
    assert Join(tail, sep) == parts[1] + z;
  }

  /** Appending an empty part appends one more separator. */
  lemma {:induction false} JoinSnoc(parts: seq<string>, sep: string)
    requires parts != []
    ensures Join(parts + [""], sep) == Join(parts, sep) + sep
  {
    var q := parts + [""];
    assert q[0] == parts[0] && q[1..] == parts[1..] + [""];
    SeparatedSnoc(parts[1..], sep);
  }

  lemma {:induction false} SeparatedSnoc(parts: seq<string>, sep: string)
    ensures Separated(parts + [""], sep) == Separated(parts, sep) + sep
    decreases |parts|
  {
    var q := parts + [""];
    if parts == [] {
      assert q == [""] && q[1..] == [];
    } else {
      assert q[0] == parts[0] && q[1..] == parts[1..] + [""];
      SeparatedSnoc(parts[1..], sep);
    }
  }

  /** A `c`-free string splits into itself. */
  lemma {:induction false} SplitFree(s: string, c: char)
    requires c !in s
    ensures Split(s, c) == [s]
  {
    if s != [] {
      SplitFree(s[1..], c);
      assert [s[0]] + s[1..] == s;
    }
  }

  /** Splitting `p + [c] + t`, where `p` is `c`-free, gives `p` followed by the split of `t`. */
  lemma {:induction false} SplitPrefix(p: string, c: char, t: string)
    requires c !in p
    ensures Split(p + [c] + t, c) == [p] + Split(t, c)
  {
    if p == [] {
      assert p + [c] + t == [c] + t;
      assert ([c] + t)[1..] == t;
    } else {
      SplitPrefix(p[1..], c, t);
      assert (p + [c] + t)[1..] == p[1..] + [c] + t;
      assert [p[0]] + p[1..] == p;
    }
  }

  /** White space and line terminators as `String.prototype.trim` removes them
      (the Unicode `Zs` category, the ECMAScript white-space characters and
      the four line terminators). */
  predicate IsSpace(c: char)
  {
    c == '\t' || c == '\n' || c == '\U{000B}' || c == '\U{000C}' || c == '\r' || c == ' '
    || c == '\U{00A0}' || c == '\U{1680}' || ('\U{2000}' <= c <= '\U{200A}')
    || c == '\U{2028}' || c == '\U{2029}' || c == '\U{202F}' || c == '\U{205F}'
    || c == '\U{3000}' || c == '\U{FEFF}'
  }

  /** How many white-space characters `s` starts with. */
  function LeadingSpaces(s: string): (n: nat)
    ensures n <= |s|
  {
    if s != [] && IsSpace(s[0]) then 1 + LeadingSpaces(s[1..]) else 0
  }

  /** How many white-space characters `s` ends with. */
  function TrailingSpaces(s: string): (n: nat)
    ensures n <= |s|
  {
    if s != [] && IsSpace(s[|s| - 1]) then 1 + TrailingSpaces(s[..|s| - 1]) else 0
  }

  /** `s.trim()`: the part of `s` between its leading white-space run and
      the trailing white-space run of what remains. */
  function Trim(s: string): (r: string)
  {
    var lead := LeadingSpaces(s);
    var trail := TrailingSpaces(s[lead..]);
    s[lead..|s| - trail]
  }

  /** `r` occurs in `s` starting at position `i`. */
  predicate OccursAt(s: string, r: string, i: int)
  {
    0 <= i <= |s| - |r| && s[i..i + |r|] == r
  }

  /** `s` neither starts nor ends with white space. */
  predicate Trimmed(s: string)
  {
    s == [] || (!IsSpace(s[0]) && !IsSpace(s[|s| - 1]))
  }

  /** Every character of `t` is white space. */
  predicate AllSpace(t: string)
  {
    forall k :: 0 <= k < |t| ==> IsSpace(t[k])
  }

  /** The leading run is white space, and the character after it is not. */
  lemma {:induction false} LeadingSpacesSpec(s: string)
    ensures forall k :: 0 <= k < LeadingSpaces(s) ==> IsSpace(s[k])
    ensures LeadingSpaces(s) < |s| ==> !IsSpace(s[LeadingSpaces(s)])
    decreases |s|
  {
    if s != [] && IsSpace(s[0]) {
      var t := s[1..];
      LeadingSpacesSpec(t);
      assert LeadingSpaces(s) == 1 + LeadingSpaces(t);
      assert forall k :: 0 <= k < |t| ==> t[k] == s[k + 1];
    }
  }

  /** The trailing run is white space, and the character before it is not. */
  lemma {:induction false} TrailingSpacesSpec(s: string)
    ensures forall k :: |s| - TrailingSpaces(s) <= k < |s| ==> IsSpace(s[k])
    ensures TrailingSpaces(s) < |s| ==> !IsSpace(s[|s| - TrailingSpaces(s) - 1])
    decreases |s|
  {
    if s != [] && IsSpace(s[|s| - 1]) {
      var t := s[..|s| - 1];
      TrailingSpacesSpec(t);
      assert TrailingSpaces(s) == 1 + TrailingSpaces(t);
      assert forall k :: 0 <= k < |t| ==> t[k] == s[k];
    }
  }

  /** `s.trim()` keeps a contiguous piece of `s` that neither starts nor ends
      with white space, and everything it removes before and after that piece
      is white space. */
  lemma TrimSpec(s: string)
    ensures var r := Trim(s);
      exists i :: OccursAt(s, r, i) && AllSpace(s[..i]) && AllSpace(s[i + |r|..])
    ensures Trimmed(Trim(s))
  {
    TrimSlice(s);
    var lead, trail := LeadingSpaces(s), TrailingSpaces(s[LeadingSpaces(s)..]);
    LeadingSpacesSpec(s);
    assert AllSpace(s[..lead]) by {
      assert forall k :: 0 <= k < lead ==> s[..lead][k] == s[k];
    }
    TrimTail(s);
    TrimTrimmed(s);
  }

  /** The trimmed string is found in `s` just after the leading run. */
  lemma TrimSlice(s: string)
    ensures OccursAt(s, Trim(s), LeadingSpaces(s))
  {
  }

  /** What follows the trimmed piece is white space. */
  lemma TrimTail(s: string)
    ensures var lead := LeadingSpaces(s);
      lead + |Trim(s)| <= |s| && AllSpace(s[lead + |Trim(s)|..])
  {
    var lead := LeadingSpaces(s);
    var a := s[lead..];
    var r := Trim(s);
    TrailingSpacesSpec(a);
    forall k | lead + |r| <= k < |s|
      ensures IsSpace(s[k])
    {
      assert s[k] == a[k - lead];
    }
    AllSpaceFrom(s, lead + |r|);
  }

  /** A suffix whose every position holds white space is all white space. */
  lemma AllSpaceFrom(s: string, i: nat)
    requires i <= |s|
    requires forall k :: i <= k < |s| ==> IsSpace(s[k])
    ensures AllSpace(s[i..])
  {
    assert forall k :: 0 <= k < |s| - i ==> s[i..][k] == s[i + k];
  }

  lemma TrimTrimmed(s: string)
    ensures Trimmed(Trim(s))
  {
    var lead := LeadingSpaces(s);
    var a := s[lead..];
    var trail := TrailingSpaces(a);
    var r := Trim(s);
    if r != [] {
      LeadingSpacesSpec(s);
      TrailingSpacesSpec(a);
      assert r[0] == s[lead];
      assert r[|r| - 1] == a[|a| - trail - 1];
    }
  }

  /** A character that does not occur in `s` does not occur in `Trim(s)`. */
  lemma TrimKeepsOut(s: string, c: char)
    requires c !in s
    ensures c !in Trim(s)
  {
    TrimSpec(s);
    var r := Trim(s);
    var i :| OccursAt(s, r, i);
    assert forall k :: 0 <= k < |r| ==> r[k] == s[i + k];
  }

  /** A string without white space at either end is left as it is. */
  lemma TrimmedFixed(s: string)
    requires Trimmed(s)
    ensures Trim(s) == s
  {
    if s != [] {
      assert LeadingSpaces(s) == 0;
      assert s[0..] == s;
      assert TrailingSpaces(s) == 0;
    }
  }

  /** Trimming is idempotent. */
  lemma TrimIdempotent(s: string)
    ensures Trim(Trim(s)) == Trim(s)
  {
    TrimSpec(s);
    TrimmedFixed(Trim(s));
  }

  /** `s.startsWith(p)`. */
  predicate StartsWith(s: string, p: string)
  {
    |p| <= |s| && s[..|p|] == p
  }

  /** `s.includes(sub)`, by scanning positions left to right. */
  predicate Contains(s: string, sub: string)
    decreases |s|
  {
    StartsWith(s, sub) || (s != [] && Contains(s[1..], sub))
  }

  /** `Contains` holds exactly when `sub` occurs at some position of `s`. */
  lemma {:induction false} ContainsSpec(s: string, sub: string)
    ensures Contains(s, sub) <==> exists i :: OccursAt(s, sub, i)
    decreases |s|
  {
    if StartsWith(s, sub) {
      assert OccursAt(s, sub, 0);
    }
    if s != [] {
      ContainsSpec(s[1..], sub);
      if Contains(s[1..], sub) {
        var i :| OccursAt(s[1..], sub, i);
        assert s[i + 1..i + 1 + |sub|] == sub;
        assert OccursAt(s, sub, i + 1);
      }
      if exists i :: OccursAt(s, sub, i) {
        var i :| OccursAt(s, sub, i);
        if i > 0 {
          assert s[1..][i - 1..i - 1 + |sub|] == sub;
          assert OccursAt(s[1..], sub, i - 1);
        }
      }
    }
  }

  /** `toLowerCase` on one character, for the ASCII letters. */
  function LowerChar(c: char): char
  {
    if 'A' <= c <= 'Z' then (c as int + 32) as char else c
  }

  /** `s.toLowerCase()`, folding ASCII letters only. */
  function Lower(s: string): (r: string)
    ensures |r| == |s|
    ensures forall i :: 0 <= i < |s| ==> r[i] == LowerChar(s[i])
  {
    if s == [] then [] else [LowerChar(s[0])] + Lower(s[1..])
  }

  /** `s.slice(0, n)`: at most the first `n` characters. */
  function Take(s: string, n: nat): (r: string)
    ensures |r| == if |s| <= n then |s| else n
    ensures StartsWith(s, r)
  {
    if |s| <= n then s else s[..n]
  }
}
